=== FILE: README.md ===
# OxidizeBot core, modelled in Dafny

OxidizeBot is a Twitch chat bot. This project models its sequential logic as pure Dafny
functions over immutable data, and proves properties about them. The model covers:

- The chat engine in `bot/src/irc.rs`:
  - parsing the moderator and VIP notices;
  - packing result items into chat lines of at most 360 bytes;
  - reading message tags;
  - alias expansion with cycle detection;
  - command resolution and authorization;
  - the user, principal, role and scope rules;
  - the moderation verdict (bad words and bad links).
- The GTA V vehicle id table (`bot/src/module/gtav/vehicle.rs`): ids, costs, the display text and the categories.
- The currency builder (`bot/src/currency.rs`) and the watch-time clamp.
- The in-memory keyed stores for aliases, promotions and themes (`bot/src/db/*.rs`). They are map-to-map functions over keys of the form (channel, lower-cased name). Each database call is a parameter that reports its outcome. Where the store's behaviour depends on the SQL, an explicit table model stands in for the SQL.
- The poll module (`bot/src/module/poll.rs`): option parsing, one vote per user, poll selection and the sorted results.

## Files and modules

- `wrappers.dfy` (`Wrappers`) defines `Option`, `Result` and `Db`. `Db` is the outcome of a database call: a value, or a failure.
- `text.dfy` (`Text`) holds the string operations the source takes from Rust's standard library:
  - trimming, `find`, `split` and `join`;
  - ASCII lower-casing;
  - decimal rendering;
  - suffixes.
- `room_members.dfy` (`RoomMembers`) models `parse_room_members`.
- `partition.dfy` (`Partition`) models `PartitionResponse::next`, `partition_response` and `User::respond_lines`, over UTF-8 bytes.
- `tags.dfy` (`Tags`) models `Tags::from_tags` and `ClearMsgTags::from_tags`.
- `principals.dfy` (`Principals`) models `Principal`, `User` and `RealUser`: roles, scopes, and how `raw` and `handle` build the sender.
- `alias_expansion.dfy` (`AliasExpansion`) models the alias loop of `process_message`.
- `dispatch.dfy` (`Dispatch`) models `process_command`.
- `moderation.dfy` (`Moderation`) models `should_be_deleted`, `test_bad_words`, `has_bad_link` and `delete_message`.
- `pipeline.dfy` (`Pipeline`) models the order of effects in `process_message` and the NOTICE branch of `handle`.
- `vehicles.dfy` (`Vehicles`) models `Vehicle`.
- `currency.rs` is modelled in `currency.dfy` (`Currency`).
- `stores.dfy` (`Stores`) holds the key shared by the three stores and the common tail of their `Display`.
- `aliases.dfy`, `promotions.dfy` and `themes.dfy` (`Aliases`, `Promotions`, `Themes`) model the three keyed stores.
- `poll.dfy` (`Poll`) models the poll module.

## Model

| member | source | states |
|---|---|---|
| Text.Trim | bot/src/irc.rs:1400 | The result has no whitespace at either end. It is a contiguous slice of the input, and everything cut off in front of it and after it is whitespace (`EndsStripped`). A trimmed string is left as is. The result is empty exactly when the input is all whitespace. |
| Text.Find | bot/src/irc.rs:1393 | `str::find`: `None` exactly when the character is absent. Otherwise it is the index of an occurrence with none before it. |
| Text.FindFirst | bot/src/irc.rs:1393 | Any index holding the character with none before it is the one `find` reports. |
| Text.Split | bot/src/irc.rs:1399 | `str::split`: at least one piece, no piece contains the separator, and joining the pieces with it gives the input back. |
| Text.SplitJoin | bot/src/irc.rs:1399 | Inverse direction: splitting a join of separator-free pieces gives the pieces back. |
| Text.TrimEndMatches | bot/src/irc.rs:1395 | `trim_end_matches('.')` removes exactly the trailing run of that character, leaving a prefix that does not end in it. |
| Text.ToLower | bot/src/db/aliases.rs:239 | Lower-casing keeps the length and maps each character independently. |
| Text.ToLowerIdempotent | bot/src/db/aliases.rs:239 | Lower-cased text has no upper-case letter, and lower-casing it again changes nothing. |
| Text.NatToString | bot/src/irc.rs:1160 | Decimal rendering: non-empty, digits only, no leading zero, and it denotes the number. |
| RoomMembers.ParseRoomMembers | bot/src/irc.rs:1390-1407 | No colon gives the empty set. Every member found is non-empty, trimmed and comma-free. |
| RoomMembers.ParseListing | bot/src/irc.rs:1390-1434 | A notice listing names after the colon, with or without a final period, parses to exactly the set of those names. This is independent of their order, and an empty listing gives the empty set. |
| RoomMembers.ExampleTwoNames | bot/src/irc.rs:1416-1421 | "The moderators of this channel are: foo, bar" gives {foo, bar}. |
| RoomMembers.ExampleSwapped | bot/src/irc.rs:1390-1407 | Listing the same names in the other order gives the same set. |
| RoomMembers.ExampleNoNames | bot/src/irc.rs:1430-1433 | "The moderators of this channel are:" gives the empty set. |
| Partition.BackOff | bot/src/irc.rs:1240-1242 | Backing off ends on a char boundary, with no boundary skipped between it and the start. |
| Partition.Truncate | bot/src/irc.rs:1238-1245 | A forced item is its prefix up to the last char boundary at or below min(len, width-3), followed by "...". It is between 3 and width bytes long, and exactly width bytes when width-3 is a boundary inside the item. |
| Partition.Fill | bot/src/irc.rs:1221-1258 | The loop consumes a prefix of the items, and any line it yields is non-empty and at most width bytes. |
| Partition.Next | bot/src/irc.rs:1213-1259 | `next` yields a line only after consuming at least one item, and every line is 1 to width bytes long. |
| Partition.Partition | bot/src/irc.rs:1263-1270 | Every line of the partition is non-empty and at most width bytes long. |
| Partition.FillPrefix | bot/src/irc.rs:1226-1233 | Items that all fit are appended to the line with the separator between them. Afterwards the buffer is their join. |
| Partition.FitsInOneLine | bot/src/irc.rs:1221-1258 | If the items joined by the separator fit in width, the partition is exactly that one join (or nothing when it is empty). |
| Partition.OverflowEndsLine | bot/src/irc.rs:1247-1249 | An item that overflows a non-empty line ends it: the line is the join of the items before it, and the item is consumed, not carried over. |
| Partition.OversizedItemAlone | bot/src/irc.rs:1237-1245 | An item wider than the line, met on an empty line, is yielded alone and truncated. |
| Partition.Lines | bot/src/irc.rs:1154 | `respond_lines` cuts its results into lines of 1 to 360 bytes. |
| Partition.HiddenNotice | bot/src/irc.rs:1160 | The notice opens with " ... " and closes with " line(s) not shown". Between them are decimal digits, without a leading zero, that denote the number of hidden lines. |
| Partition.RespondLines | bot/src/irc.rs:1149-1168 | No lines gives `empty`. One line gives that line. k > 1 lines give the first line plus " ... {k-1} line(s) not shown". |
| Partition.RespondLinesFits | bot/src/irc.rs:1149-1168 | A result set whose " \| "-join fits in 360 bytes is sent whole. |
| Tags.LastValued | bot/src/irc.rs:1302-1327 | The value found is carried by a tag of that name. `None` is returned exactly when no tag of that name has a value. |
| Tags.LastValuedSnoc | bot/src/irc.rs:1302-1327 | A later valued tag overrides earlier ones; valueless or other tags change nothing. |
| Tags.FromTags | bot/src/irc.rs:1296-1330 | Each of id, msg-id, display-name, user-id, color and emotes holds the value of the last valued tag of that name. No tags gives all `None`. |
| Tags.ClearMsgTarget | bot/src/irc.rs:1340-1358 | The target is the last valued `target-msg-id`, and `None` when there is none or no tags at all. |
| Principals.Name | bot/src/irc.rs:1095-1100 | A name exists exactly for a real user. |
| Principals.DisplayName | bot/src/irc.rs:1105-1111 | The display-name tag, else the login. It is absent only for an injected message without that tag. |
| Principals.Is | bot/src/irc.rs:1119-1121 | The sender matches exactly when it is a real user whose login is the name lower-cased, character by character. Such a login is lower-case. |
| Principals.IsIgnoresCase | bot/src/irc.rs:999-1001 | `is` does not depend on the case of the name asked about. |
| Principals.StreamerAndModeratorByName | bot/src/irc.rs:1124-1131 | `User::is_streamer` and `User::is_moderator` (the `IsStreamer` and `IsModerator` predicates) hold exactly when the sender's login is the streamer's or a moderator's. A message without a login, an injected one, counts as both. |
| Principals.RealRoles | bot/src/irc.rs:1024-1045 | Each role is present exactly when its condition holds; the streamer is always a subscriber. Each role ranks below the next, and the list ends with Everyone. |
| Principals.Roles | bot/src/irc.rs:1171-1183 | An injected message has [Streamer, Moderator, Subscriber, Vip] with no Everyone. A real user has `RealRoles`. Either way each role ranks below the next. |
| Principals.HasScope | bot/src/irc.rs:1186-1193 | An injected message never holds a scope. A real user holds one exactly when the authorization back-end grants it for the login and roles. |
| Principals.StreamerRoles | bot/src/irc.rs:1004-1045 | The streamer's messages carry Streamer and Subscriber whatever the subscriber lookup says. |
| Principals.InjectedUser | bot/src/irc.rs:816-833 | `raw` builds an injected sender with no tags and records the streamer by login. |
| Principals.PrivmsgUserAsWritten | bot/src/irc.rs:857-868 | `handle` records the streamer by the account's numeric id. |
| Principals.PrivmsgUser | bot/src/irc.rs:857-868 | The corrected sender records the streamer by login. |
| Principals.StreamerNotRecognisedAsWritten | bot/src/irc.rs:863 | As written, the streamer chatting under their login is neither `is_streamer` nor given the Streamer role. |
| Principals.StreamerRecognised | bot/src/irc.rs:1004-1006 | Corrected: a sender is the streamer, and has the Streamer role, exactly when their login is the streamer's. |
| AliasExpansion.AfterSnoc | bot/src/irc.rs:741-757 | Each resolution step extends the path by one key and moves the message to the rewrite. |
| AliasExpansion.Expand | bot/src/irc.rs:737-758 | On success: the final message is what the recorded path leads to, no alias applies to it, and the path has no repeats. On a cycle: the path has no repeats except its last key, which occurred earlier. |
| AliasExpansion.CycleMessage | bot/src/irc.rs:749-753 | The cycle reply starts with "Recursion found in alias expansion: " and ends with " :(". After the opening comes the first key of the path, then " -> " if more keys follow. Before the closing comes the last key, which is the repeated one. |
| AliasExpansion.TerminalPathUnique | bot/src/irc.rs:737-758 | Any two resolution paths that end on a message no alias applies to are the same path, so the expansion result is determined. |
| Dispatch.Resolve | bot/src/irc.rs:563-569 | The currency command takes the name first. The handler registry is consulted only when the name differs from it or no currency command is set. |
| Dispatch.ProcessCommand | bot/src/irc.rs:545-618 | The result is the ping reply exactly when the command is "ping". Otherwise a resolved handler runs when it has no scope or its scope is held. When the scope is lacking the handler is refused, with "not allowed" for moderators and "democracy" otherwise. With no handler, a script of that name runs. The command is ignored exactly when nothing matches. |
| Dispatch.RunsIffAuthorized | bot/src/irc.rs:578-603 | A resolved handler runs exactly when it is unscoped or its scope is held. |
| Dispatch.InjectedRefusedScoped | bot/src/irc.rs:578-589 | An injected command for a scoped handler is refused with "You are not allowed to run that command". |
| Dispatch.CurrencyShadowsHandlers | bot/src/irc.rs:563-569 | The currency command shadows a registered handler of the same name. |
| Dispatch.FailureReply | bot/src/irc.rs:591-603 | A respond error replies with its message; any other error replies with the generic failure text. |
| Moderation.FirstBad | bot/src/irc.rs:673-683 | The first word the tester flags, and `None` exactly when it flags none. |
| Moderation.TestBadWords | bot/src/irc.rs:673-683 | A bad word is found exactly when some word is flagged. It is the entry of the first flagged word: no word before it is flagged. |
| Moderation.HasBadLink | bot/src/irc.rs:686-696 | True exactly when some URL has a host outside the whitelist. |
| Moderation.ShouldBeDeleted | bot/src/irc.rs:634-670 | A moderator's message is never deleted. Otherwise it is deleted exactly when bad words are enabled and found, or when the sender lacks the whitelist-bypass scope and a bad link occurs. Any notice comes with a deletion. When bad words are enabled and one is found, the notice is the rendering of the first flagged word's reason, or nothing when it has no reason or the rendering fails. In every other case there is no notice. |
| Moderation.InjectedNeverDeleted | bot/src/irc.rs:636-638 | Injected messages are never deleted. |
| Moderation.DeleteTarget | bot/src/irc.rs:622-631 | A deletion targets the message's id tag, and there is none without it. |
| Pipeline.CommandOf | bot/src/irc.rs:760-785 | A command exists exactly when the first word starts with "!", and it is the rest of that word. |
| Pipeline.ProcessMessage | bot/src/irc.rs:709-813 | Only non-streamers bump the idle counter. The expansion ends in a cycle only when its path's last key repeats an earlier one, and every key before it is distinct. A cycle gives one cycle reply, with no command and no deletion. A finished expansion has a path of distinct keys that leads to the expanded message, which matches no further alias. Both are `AliasExpansion.Explains`, which `AliasExpansion.Expand` also ensures. Processing fails exactly when the expanded message's template command fails, and then nothing else happens. Otherwise the template's rendering and then the moderation notice are posted, and the command is taken from the expanded message. A deletion hits only a non-moderator's message id. |
| Pipeline.HandleNotice | bot/src/irc.rs:903-931 | A login failure shuts the handler down, whatever the msg-id. no_mods and no_vips clear a roster, room_mods and vips_success replace it, and any other notice leaves it as it was. |
| Vehicles.ToString | bot/src/module/gtav/vehicle.rs:107-125 | A table vehicle prints its id; a built-in prints its fixed id. |
| Vehicles.FromId | bot/src/module/gtav/vehicle.rs:42-59 | A vehicle found prints as the id it was found by. An id not in the table and not a built-in id gives `None`; matching is case-sensitive. |
| Vehicles.FromIdValid | bot/src/module/gtav/vehicle.rs:42-59 | `from_id` only yields vehicles of the enumeration. |
| Vehicles.BuiltInIdsNotInTable | bot/src/module/gtav/vehicle.rs:45-57 | No built-in id is also a table id. |
| Vehicles.RoundTrip | bot/src/module/gtav/vehicle.rs:42-59 | `from_id(v.to_string()) == Some(v)` for every vehicle. |
| Vehicles.IdsDistinct | bot/src/module/gtav/vehicle.rs:107-125 | Different vehicles print differently. |
| Vehicles.Cost | bot/src/module/gtav/vehicle.rs:64-80 | Random, pedal bike and jet ski cost 10. Slow, normal and submarine cost 20. Fast costs 30. Bike, fighter jet and tank cost 50. Gauntlet costs 30 and hydra 60. Every other table vehicle costs 50, so every cost lies in [10, 60]. |
| Vehicles.Display | bot/src/module/gtav/vehicle.rs:23-39 | A table vehicle displays as "a {id}!". |
| Vehicles.Cars | bot/src/module/gtav/vehicle.rs:83-86 | The cars are exactly [Slow, Normal, Fast], all built-in vehicles. |
| Vehicles.Categories | bot/src/module/gtav/vehicle.rs:89-96 | Eleven categories, all of them vehicles. |
| Vehicles.CarsAreCategories | bot/src/module/gtav/vehicle.rs:83-96 | Every car is a category, and the categories are distinct. |
| Currency.DefaultBackendType | bot/src/currency.rs:145-154 | The default backend is the built-in one. |
| Currency.NewBuilder | bot/src/currency.rs:52-68 | A new builder is disabled, has the default backend, and has no name, database or URL. |
| Currency.SchemaFor | bot/src/currency.rs:101-120 | Honkos always uses its fixed schema, and MySQL uses the configured one. |
| Currency.Build | bot/src/currency.rs:85-142 | A disabled builder builds nothing. A currency is built exactly when the backend's prerequisites hold, the connect succeeds where one is needed, and a name is set. It carries the name, the command flag and the right backend. |
| Currency.NewBuilderBuildsNothing | bot/src/currency.rs:52-90 | A fresh builder builds nothing. |
| Currency.BuildAndInject | bot/src/currency.rs:71-82 | The injected currency is cleared exactly when nothing can be built, and is otherwise the built one. |
| Currency.WatchTime | bot/src/currency.rs:28-34 | A negative stored count gives zero seconds; otherwise the count itself. |
| Currency.BalancesIncrement | bot/src/currency.rs:229-250 | The increment goes to the backend's own implementation with the same channel, users and amount. Only the built-in backend gets the watch time. |
| Currency.MySqlIgnoresWatchTime | bot/src/currency.rs:248 | For MySQL backends, the watch time has no effect on the increment. |
| Stores.NewKey | bot/src/db/aliases.rs:236-241 | A key keeps the channel and lower-cases each character of the name. |
| Stores.NewKeyIgnoresCase | bot/src/db/promotions.rs:203-210 | Keys do not depend on the case of the name, and building a key from a key's name changes nothing. |
| Stores.GroupTail | bot/src/db/promotions.rs:254-265 | The display tail ends with the disabled flag and prints "*none*" for an absent group. |
| Aliases.DbEdit | bot/src/db/aliases.rs:14-50 | The row gets the new text. A new row is enabled and returned. An existing row keeps its other fields, and is returned only when enabled. No other row changes. |
| Aliases.Edit | bot/src/db/aliases.rs:124-151 | A database failure is an error. Otherwise only the key changes: it is present exactly when the database returned a row, which then carries the new template and the row's group and flag. |
| Aliases.EditAgainstTable | bot/src/db/aliases.rs:14-151 | Against the table, the alias is kept after `edit` exactly when it is new or enabled, with the new template and the stored group. |
| Aliases.Delete | bot/src/db/aliases.rs:154-163 | The result is true exactly when one row was deleted, and then only that key is removed. Otherwise the map is unchanged. |
| Aliases.Get | bot/src/db/aliases.rs:166-176 | An alias is found exactly when its lower-cased key is present, and it is the stored one. |
| Aliases.List | bot/src/db/aliases.rs:179-193 | The aliases listed are exactly the stored aliases of that channel. |
| Aliases.Matches | bot/src/db/aliases.rs:267-288 | A match happens exactly when the lower-cased first word is the alias name and the template renders. It returns the word and the rendering. |
| Aliases.Lookup | bot/src/db/aliases.rs:105-121 | Only aliases of the channel are tried. `None` is returned exactly when none of them matches, and any result comes from one of them. |
| Aliases.LookupIsGet | bot/src/db/aliases.rs:105-121 | `lookup` does not depend on the map's iteration order: it is `get` of the first word followed by `matches`. |
| Aliases.Rename | bot/src/db/aliases.rs:196-226 | Conflict exactly when the target exists, which is checked first. Missing exactly when neither exists. On success the source moves to the target with its key updated, and nothing else changes. |
| Aliases.RenameToSelfConflicts | bot/src/db/aliases.rs:202-204 | Renaming an alias to its own name, in any case, is a Conflict. |
| Aliases.FromDb | bot/src/db/aliases.rs:254-264 | A stored row becomes an alias with a lower-cased key and the same text, group and flag. |
| Aliases.DbRenameAsWritten | bot/src/db/aliases.rs:64-75 | As written, the renamed row's name becomes the channel. |
| Aliases.DbRename | bot/src/db/aliases.rs:64-75 | Corrected: the row moves to the target name, and the table stays keyed. |
| Aliases.RenameLostOnReload | bot/src/db/aliases.rs:71 | Renaming "hi" to "hey" on "#ch", as written, stores the alias under "#ch", so it is not found as "hey" after a reload. |
| Aliases.RenameSurvivesReload | bot/src/db/aliases.rs:196-226 | With the corrected row update, reloading gives exactly the in-memory renamed alias. |
| Promotions.AsI32 | bot/src/db/promotions.rs:51 | The `as i32` cast keeps values below 2^31 and wraps modulo 2^32. |
| Promotions.AsU64 | bot/src/db/promotions.rs:230 | The `as u64` cast keeps non-negative values and sign-extends negative ones. |
| Promotions.DbEditAsWritten | bot/src/db/promotions.rs:34-87 | As written, a newly inserted row is reported as `None`, the same as a disabled row. |
| Promotions.DbEdit | bot/src/db/promotions.rs:34-87 | Corrected: a newly inserted row is returned, enabled. |
| Promotions.Edit | bot/src/db/promotions.rs:141-171 | A database failure is an error. Otherwise only the key changes, and it is present exactly when the database returned a row, with the new frequency and template. |
| Promotions.NewPromotionDroppedAsWritten | bot/src/db/promotions.rs:69 | As written, editing a promotion that is not yet stored leaves it out of memory. |
| Promotions.EditAgainstTable | bot/src/db/promotions.rs:34-171 | Corrected: the promotion is in memory after `edit` exactly when it is new or enabled. |
| Promotions.BumpAsWritten | bot/src/db/promotions.rs:174-194 | As written, a database failure removes the promotion from memory. |
| Promotions.Bump | bot/src/db/promotions.rs:174-194 | Corrected: Missing exactly when the key is absent, with any failure leaving the map unchanged. Success sets `promoted_at` to now and changes nothing else. |
| Promotions.BumpLosesPromotionAsWritten | bot/src/db/promotions.rs:177-187 | On a database failure the as-written bump loses the promotion and the corrected one keeps it. On success the two agree. |
| Promotions.FromDb | bot/src/db/promotions.rs:225-243 | A row becomes a promotion with a lower-cased key and the same timestamps, text, group and flag. A non-negative frequency is kept. |
| Promotions.FrequencyRoundTrip | bot/src/db/promotions.rs:51-230 | A frequency below 2^31 survives storing and reloading; 2^31 comes back as 0xFFFF_FFFF_8000_0000. |
| Promotions.Display | bot/src/db/promotions.rs:254-265 | The display starts with "frequency = ", ends with the disabled flag, and prints "*none*" for an absent group. |
| Themes.AsI32 | bot/src/db/themes.rs:80 | The `as i32` cast of a u32 offset wraps above 2^31 - 1. |
| Themes.AsU32 | bot/src/db/themes.rs:212 | The `as u32` cast of a stored i32 wraps negatives. |
| Themes.OffsetRoundTrip | bot/src/db/themes.rs:80-212 | Every u32 offset survives storing and reloading. |
| Themes.MapU32 | bot/src/db/themes.rs:213 | An optional end converts value-wise. |
| Themes.MapI32 | bot/src/db/themes.rs:81 | An optional end converts value-wise. |
| Themes.DbEdit | bot/src/db/themes.rs:20-66 | A new row has start 0 and no end, and is returned. An existing row gets the new track id and is returned only when enabled. |
| Themes.Edit | bot/src/db/themes.rs:122-152 | A database failure is an error. Otherwise only the key changes, and it is present exactly when the database returned a row. |
| Themes.EditAgainstTable | bot/src/db/themes.rs:20-152 | Against the table, the theme is kept exactly when it is new or enabled. A new one starts at 0 with no end. |
| Themes.DbEditDuration | bot/src/db/themes.rs:68-92 | Only an existing row's start and end change. |
| Themes.EditDuration | bot/src/db/themes.rs:155-177 | It never inserts. An existing theme gets the new start and end with every other field kept, and nothing else changes. |
| Themes.FromDb | bot/src/db/themes.rs:209-223 | A row becomes a theme with a lower-cased key, converted offsets, and the same track id, group and flag. |
| Themes.DurationSurvivesReload | bot/src/db/themes.rs:68-223 | The edited duration survives storing and reloading. |
| Themes.EndTail | bot/src/db/themes.rs:226-241 | An absent end prints "*none*", followed by the group tail. |
| Themes.Display | bot/src/db/themes.rs:226-241 | The display starts with "track_id = " and ends with the end, group and disabled fields. |
| Poll.Scope | bot/src/module/poll.rs:17-19 | The poll command requires the Poll scope. |
| Poll.ParseOption | bot/src/module/poll.rs:32-42 | An option splits at its first "=" into a lower-cased key and the description after it. Without "=", it has no description. |
| Poll.ParseOptionRoundTrip | bot/src/module/poll.rs:32-42 | A lower-case "key=description" parses back into that key and description. |
| Poll.LastFor | bot/src/module/poll.rs:32-42 | A key is defined exactly when some token has it. |
| Poll.ParseOptions | bot/src/module/poll.rs:32-42 | The option map holds exactly the keys of the tokens, each with the description of its last token. |
| Poll.PeekAsWritten | bot/src/module/poll.rs:142-165 | As written, the first matching word adds one vote under the word as typed. |
| Poll.FirstVote | bot/src/module/poll.rs:154-162 | The first word whose lower-case form is an option, and `None` exactly when there is none. |
| Poll.Peek | bot/src/module/poll.rs:142-165 | Injected senders and users who already voted change nothing. Otherwise the first matching word adds one vote under its key and marks the user as voted. |
| Poll.PeekKeepsHonest | bot/src/module/poll.rs:142-165 | With the corrected key, every counted vote stays under an option. |
| Poll.CapitalVoteLostAsWritten | bot/src/module/poll.rs:159 | As written, a vote typed "YES" for option "yes" is recorded under "YES" and counts as 0 at close. Corrected, it counts. |
| Poll.Insert | bot/src/module/poll.rs:135 | Insertion keeps the order non-increasing and adds exactly the element. |
| Poll.SortByCount | bot/src/module/poll.rs:135 | The sort is a permutation in non-increasing count order. |
| Poll.Unsorted | bot/src/module/poll.rs:127-134 | One entry per key: its description or key, and its count (0 when absent). |
| Poll.Close | bot/src/module/poll.rs:123-137 | The results are a permutation of the options' standings, so there is exactly one entry per option, labelled and counted as above. They come in non-increasing count order. |
| Poll.OrderCoversOptions | bot/src/module/poll.rs:123-137 | A distinct enumeration of the options is as long as the option map. |
| Poll.DistinctCard | bot/src/module/poll.rs:123-137 | A sequence without repeats has as many distinct elements as its length. |
| Poll.VoteWording | bot/src/module/poll.rs:88-92 | 0 gives "no votes" and 1 gives "one vote". n ≥ 2 gives the decimal of n followed by " votes". |
| Poll.VoteWordingInjective | bot/src/module/poll.rs:88-92 | Different counts are worded differently. |
| Poll.KeysInOrder | bot/src/module/poll.rs:30-42 | The options are enumerated once each, exactly the tokens' keys. |
| Poll.KeysInOrderAdmissible | bot/src/module/poll.rs:30-42 | First-appearance order lists each parsed option exactly once. It is therefore one iteration order that `Start` accepts for the options map. |
| Poll.Newest | bot/src/module/poll.rs:65-71 | `max_by_key`: the greatest `created_at`, with the last of equal maxima winning. |
| Poll.SelectPoll | bot/src/module/poll.rs:62-76 | An unparsable id is BadId, and an unknown id is NoPollWithId. Without an id it fails with NoRunningPolls exactly when there are none. Otherwise it succeeds and picks a poll with the greatest creation time, the last such in the iteration order, as `max_by_key` does. |
| Poll.RemoveId | bot/src/module/poll.rs:74-76 | Removing a poll id keeps the other ids, and their distinctness. |
| Poll.FormatAll | bot/src/module/poll.rs:83-95 | Each standing is formatted in place. |
| Poll.Start | bot/src/module/poll.rs:27-57 | "run" registers a new poll under the hook id, with the parsed options and no votes. The options keep the given map iteration order, and the running polls take the given order of their ids. Every other running poll is kept. |
| Poll.Stop | bot/src/module/poll.rs:74-78 | "close" removes exactly the closed poll's id, and the running polls stay consistent. |
| Poll.Announce | bot/src/module/poll.rs:80-97 | The announcement opens with the question and " -> " and ends with ".". Between them are the formatted results of `Close`, in its order, joined by ", ". Each share is taken of the total of all votes. |
| Poll.Handle | bot/src/module/poll.rs:22-101 | A disabled poll does nothing. "run" without a question is the usage error and changes nothing. "run" adds a poll with the parsed options, in the given iteration orders. "close" fails with `SelectPoll`'s error and changes nothing, or removes exactly the selected poll and replies with its `Announce` text. Any other subcommand gets the usage reply "Expected: run, close.". The set of running polls stays valid. |

## Left out

- Lower-casing is ASCII-only (A to Z). Rust's `to_lowercase` also maps non-ASCII letters; Unicode case mapping is not modelled.
- The `Words`, `TrimmedWords` and `Urls` tokenizers are parameters: `utils.rs` is not part of this model. So are template rendering, `Auth::test_any`, the bad-words tester and `common::percentage`.
- The `{name} -> ` prefix that `respond` puts in front of a reply is not modelled, because `utils.rs` is not part of this model.
- The Duration and Offset display formats are parameters (`durationText`, `offsetText`). Offsets are taken to be u32 milliseconds and durations a count of seconds.
- HashMap iteration order is an explicit sequence parameter wherever it matters: alias lookup, a new poll's options and the running polls' ids (parameters of `Poll.Start`), poll results, and ties in `max_by_key`.
- Partition.Fill: the item that overflows a non-empty line (irc.rs 1247-1249) has already been taken from the iterator, so it is neither written nor carried to the next line. The model keeps this as written on purpose, and `Partition.OverflowEndsLine` states the loss. A variant that carries the item over is not modelled.
- Poll.Stop: removing a poll keeps the other ids in their previous relative order. The source's HashMap may iterate the remaining polls in any order, so this is one admissible order, not the only one.
- Poll.Peek: the vote count is an unbounded `nat`. The source's u32 counter cannot overflow in practice.
- Pipeline.ProcessMessage: template commands (irc.rs 763-782) are one oracle, `Channel.templates`. It stands for `Commands::resolve`, the count increment and `render`, and reports no match, a rendering, or a failure. Template lookup, capture and rendering themselves are not modelled.
- Message hooks (irc.rs 715-729) are left out, because they run in a spawned task whose errors are only logged. The idle counter is modelled only as the "seen" flag.
- Not modelled because it is concurrency, timing or I/O:
  - the IRC event loop, its timers and PING/PONG;
  - CAP ACK;
  - the Sender;
  - chat-log writes for CLEARMSG and CLEARCHAT (only the CLEARMSG target id is modelled);
  - the spawned handler tasks. A handler is modelled as invoked or not invoked; its error reply is `Dispatch.FailureReply`.
- `Vehicle::random_car` is left out because it draws on a random-number generator.
- The SQL of the database wrappers is replaced by table models (`DbEdit`, `DbRename`, `DbEditDuration`) or by the reported outcome (`Db<...>`).
- Currency.Build: the MySQL connect is an oracle, and a failed connect gives `None`. The connection the source opens before it notices a missing name is a side effect and is not modelled.
- Poll.Handle: the usage error for "run" without a question is an abstract `MissingQuestion` reply, because the `next_str` error text is in a macro that is not shown. The hook id is a fresh parameter. The "run" reply's id text is a parameter, because the `HookId` display is not visible.
- The 647 table vehicles are one constructor `Model(id)`, restricted to the table's ids by `Vehicles.Valid`. It is not one constructor per id.
- `User::has_scope` returns false for injected messages (irc.rs 1186-1193), so an injected command for a scoped handler is refused. The model keeps that behaviour.

## Findings

| source | as written | input that shows it | evidently intended | confidence | as-written member | corrected member |
|---|---|---|---|---|---|---|
| bot/src/irc.rs:863 | `handle` records the streamer by `streamer.user.id` | the streamer chats as login "streamer" with id "12345": `is_streamer` is false and the Streamer role is missing | record `streamer.user.login`, as `raw` does (line 824) | high, not executed | Principals.PrivmsgUserAsWritten, Principals.StreamerNotRecognisedAsWritten | Principals.PrivmsgUser, Principals.StreamerRecognised |
| bot/src/db/aliases.rs:71 | the UPDATE sets `name` twice, the second time to the channel | rename "hi" to "hey" in "#ch": the row is stored with name "#ch" | set the name to the target name only | high, not executed | Aliases.DbRenameAsWritten, Aliases.RenameLostOnReload | Aliases.DbRename, Aliases.RenameSurvivesReload |
| bot/src/db/promotions.rs:69 | the DB edit returns `None` after inserting a new row | `edit` of a promotion not yet in the table: it is not put into memory | return the new row, as the aliases and themes stores do | medium, not executed | Promotions.DbEditAsWritten, Promotions.NewPromotionDroppedAsWritten | Promotions.DbEdit, Promotions.EditAgainstTable |
| bot/src/db/promotions.rs:177-187 | the entry is removed from the map before the DB bump; a DB error returns early | `bump_promoted_at` while the database fails: the promotion disappears from memory | reinsert or keep the entry on failure | medium, not executed | Promotions.BumpAsWritten, Promotions.BumpLosesPromotionAsWritten | Promotions.Bump |
| bot/src/module/poll.rs:159 | a vote is counted under the word as typed, while `close` reads the lower-cased keys | option "yes", the user types "YES": the vote counts 0 | count under the lower-cased word | high, not executed | Poll.PeekAsWritten, Poll.CapitalVoteLostAsWritten | Poll.Peek, Poll.PeekKeepsHonest |

=== FILE: alias_expansion.dfy ===
/** Alias expansion with cycle detection (irc.rs `Handler::process_message`). The alias
    resolver is a parameter: for a message it returns the key of the alias whose name is
    the first word, identified by its text, and the rewritten message. */
module AliasExpansion {
  import opened Wrappers
  import Text

  /** Resolves one alias in a message. */
  type Resolver = string -> Option<(string, string)>

  /** How the expansion loop ends: with the fully rewritten message and the keys used, or
      with a key used twice, the path then ending in the repeated key. */
  datatype Expansion = Expanded(message: string, path: seq<string>) | Cycle(path: seq<string>)

  predicate Distinct(path: seq<string>) {
    forall i, j :: 0 <= i < j < |path| ==> path[i] != path[j]
  }

  /** The message reached from `m` by resolving aliases along exactly the keys of
      `path`, or None when the resolver does not follow that path. */
  function After(resolve: Resolver, m: string, path: seq<string>): Option<string>
    decreases |path|
  {
    if path == [] then Some(m)
    else match resolve(m)
      case None => None
      case Some(step) => if step.0 == path[0] then After(resolve, step.1, path[1..]) else None
  }

  /** One more resolution extends a followed path by the key it returns. */
  lemma {:induction false} AfterSnoc(resolve: Resolver, m: string, path: seq<string>, key: string, next: string)
    requires After(resolve, m, path).Some?
    requires resolve(After(resolve, m, path).value) == Some((key, next))
    ensures After(resolve, m, path + [key]) == Some(next)
    decreases |path|
  {
    if path == [] {
      assert [] + [key] == [key];
    } else {
      var step := resolve(m).value;
      assert (path + [key])[0] == path[0] && (path + [key])[1..] == path[1..] + [key];
      AfterSnoc(resolve, step.1, path[1..], key, next);
    }
  }

  /** What an expansion of `message` promises. A finished expansion follows distinct keys
      to a message no alias applies to. A cycle follows its path, whose last key repeats
      one of the distinct keys before it. */
  predicate Explains(resolve: Resolver, message: string, x: Expansion) {
    match x
    case Expanded(m, path) =>
      After(resolve, message, path) == Some(m) && resolve(m).None? && Distinct(path)
    case Cycle(path) =>
      && |path| >= 2
      && Distinct(path[..|path| - 1])
      && path[|path| - 1] in path[..|path| - 1]
      && After(resolve, message, path).Some?
  }

  /** The expansion loop. It stops when no alias applies, or as soon as a key comes up a
      second time. The resolver draws its keys from the finite alias table `keys`. */
  method Expand(resolve: Resolver, keys: set<string>, message: string) returns (r: Expansion)
    requires forall m :: resolve(m).Some? ==> resolve(m).value.0 in keys
    ensures r.Expanded? ==>
              && After(resolve, message, r.path) == Some(r.message)
              && resolve(r.message).None?
              && Distinct(r.path)
    ensures r.Cycle? ==>
              && |r.path| >= 2
              && Distinct(r.path[..|r.path| - 1])
              && r.path[|r.path| - 1] in r.path[..|r.path| - 1]
              && After(resolve, message, r.path).Some?
    ensures Explains(resolve, message, r)
  {
    var seen: set<string> := {};
    var path: seq<string> := [];
    var m := message;
    while true
      invariant forall k :: k in seen <==> k in path
      invariant seen <= keys && Distinct(path)
      invariant After(resolve, message, path) == Some(m)
      decreases |keys - seen|
    {
      var res := resolve(m);
      if res.None? {
        return Expanded(m, path);
      }
      var key, next := res.value.0, res.value.1;
      AfterSnoc(resolve, message, path, key, next);
      var path' := path + [key];
      assert path'[..|path'| - 1] == path;
      if key in seen {
        return Cycle(path');
      }
      assert keys - (seen + {key}) < keys - seen;
      seen := seen + {key};
      path := path';
      m := next;
    }
  }

  /** The reply to a cyclic expansion. */
  function CycleMessage(path: seq<string>): (r: string)
    ensures |r| >= |"Recursion found in alias expansion: "|
    ensures r[..|"Recursion found in alias expansion: "|] == "Recursion found in alias expansion: "
    ensures Text.EndsWith(r, " :(")
    ensures |path| > 0 ==> Text.EndsWith(r, path[|path| - 1] + " :(")
    ensures |path| > 0 ==> Text.StartsWith(r[|"Recursion found in alias expansion: "|..], path[0] + (if |path| > 1 then " -> " else " :("))
  {
    var prefix := "Recursion found in alias expansion: ";
    CycleEnds(prefix, path);
    CycleStarts(prefix, path);
    prefix + Text.Join(path, " -> ") + " :("
  }

  /** A prefix, a path joined by arrows and the closing " :(": the text ends with the
      last key and the closing. */
  lemma CycleEnds(prefix: string, path: seq<string>)
    ensures var r := prefix + Text.Join(path, " -> ") + " :(";
            && Text.EndsWith(r, " :(")
            && (|path| > 0 ==> Text.EndsWith(r, path[|path| - 1] + " :("))
  {
    Text.FramedJoinEnds(prefix, path, " -> ", " :(");
  }

  /** After the prefix the text opens with the first key, then an arrow or the closing. */
  lemma CycleStarts(prefix: string, path: seq<string>)
    ensures var r := prefix + Text.Join(path, " -> ") + " :(";
            |path| > 0 ==> Text.StartsWith(r[|prefix|..], path[0] + (if |path| > 1 then " -> " else " :("))
  {
    if |path| > 0 {
      var joined := Text.Join(path, " -> ");
      var r := prefix + joined + " :(";
      assert r[|prefix|..] == joined + " :(";
      Text.JoinEnds(path, " -> ");
      if |path| > 1 {
        assert (joined + " :(")[..|path[0] + " -> "|] == joined[..|path[0] + " -> "|];
      }
    }
  }

  /** Resolution is deterministic: at most one path of keys leads from a message to a
      message no alias applies to, so the expansion's result is the only possible one. */
  lemma {:induction false} TerminalPathUnique(resolve: Resolver, m: string, p: seq<string>, q: seq<string>)
    requires After(resolve, m, p).Some? && resolve(After(resolve, m, p).value).None?
    requires After(resolve, m, q).Some? && resolve(After(resolve, m, q).value).None?
    ensures p == q
    decreases |p|
  {
    if p != [] && q != [] {
      var step := resolve(m).value;
      TerminalPathUnique(resolve, step.1, p[1..], q[1..]);
      assert p == [p[0]] + p[1..] && q == [q[0]] + q[1..];
    }
  }
}

=== FILE: aliases.dfy ===
/** The alias store (db/aliases.rs): an in-memory map from key to alias, kept in step
    with the `aliases` table of the database. Template compilation and rendering are
    parameters, and templates are held as their source text. */
module Aliases {
  import opened Wrappers
  import Text
  import opened Stores

  /** A row of the `aliases` table. */
  datatype Row = Row(channel: string, name: string, text: string, group: Option<string>, disabled: bool)

  /** An in-memory alias. */
  datatype Alias = Alias(key: Key, template: string, group: Option<string>, disabled: bool)

  type Store = map<Key, Alias>

  /** The table, indexed by the channel and name columns its queries filter on. */
  type Table = map<Key, Row>

  /** Every alias is stored under its own key. */
  predicate WellKeyed(store: Store) {
    forall k :: k in store ==> store[k].key == k
  }

  /** Every row is indexed by its own channel and name. */
  predicate TableKeyed(table: Table) {
    forall k :: k in table ==> table[k].channel == k.channel && table[k].name == k.name
  }

  /** Nothing but the entry under `key` differs. */
  ghost predicate Unchanged(before: Store, after: Store, key: Key) {
    forall k :: k != key ==> (k in before <==> k in after) && (k in before ==> before[k] == after[k])
  }

  /** `Database::edit`: a new key gets an enabled row without group, which is reported;
      an existing row has its text replaced and is reported as it was, unless disabled. */
  function DbEdit(table: Table, key: Key, text: string): (r: (Table, Option<Row>))
    ensures key in r.0 && r.0[key].text == text
    ensures key !in table ==> r.0[key] == Row(key.channel, key.name, text, None, false) && r.1 == Some(r.0[key])
    ensures key in table ==> r.0[key] == table[key].(text := text)
    ensures key in table ==> r.1 == (if table[key].disabled then None else Some(table[key]))
    ensures forall k :: k != key ==> (k in table <==> k in r.0) && (k in table ==> r.0[k] == table[k])
  {
    if key !in table then
      var row := Row(key.channel, key.name, text, None, false);
      (table[key := row], Some(row))
    else
      var row := table[key];
      (table[key := row.(text := text)], if row.disabled then None else Some(row))
  }

  /** `Aliases::edit`: a database failure leaves the store as it was; otherwise the alias
      is stored, with group and disabled flag from the reported row, when the database
      reports one, and removed when it reports none. */
  function Edit(store: Store, channel: string, name: string, template: string, db: Db<Option<Row>>): (r: Result<Store, ()>)
    requires WellKeyed(store)
    ensures db.DbFailed? <==> r.Err?
    ensures r.Ok? ==> WellKeyed(r.value) && Unchanged(store, r.value, NewKey(channel, name))
    ensures r.Ok? ==> (NewKey(channel, name) in r.value <==> db.value.Some?)
    ensures r.Ok? && db.value.Some? ==>
              r.value[NewKey(channel, name)]
              == Alias(NewKey(channel, name), template, db.value.value.group, db.value.value.disabled)
  {
    var key := NewKey(channel, name);
    match db
    case DbFailed => Err(())
    case DbOk(Some(row)) => Ok(store[key := Alias(key, template, row.group, row.disabled)])
    case DbOk(None) => Ok(store - {key})
  }

  /** Editing against the table: afterwards the alias is in memory exactly when it is
      new or enabled, and then it is enabled and keeps the group of its row. */
  lemma EditAgainstTable(store: Store, table: Table, channel: string, name: string, template: string)
    requires WellKeyed(store)
    ensures var key := NewKey(channel, name);
            var r := Edit(store, channel, name, template, DbOk(DbEdit(table, key, template).1));
            && r.Ok?
            && (key in r.value <==> key !in table || !table[key].disabled)
            && (key in r.value ==> !r.value[key].disabled && r.value[key].template == template)
            && (key in r.value ==> r.value[key].group == if key in table then table[key].group else None)
  {
  }

  /** `Aliases::delete`: nothing changes unless the database deleted exactly one row,
      in which case the alias is removed. */
  function Delete(store: Store, channel: string, name: string, deletedRows: Db<nat>): (r: Result<(bool, Store), ()>)
    requires WellKeyed(store)
    ensures deletedRows.DbFailed? <==> r.Err?
    ensures r.Ok? ==> (r.value.0 <==> deletedRows.value == 1)
    ensures r.Ok? && !r.value.0 ==> r.value.1 == store
    ensures r.Ok? && r.value.0 ==> NewKey(channel, name) !in r.value.1 && Unchanged(store, r.value.1, NewKey(channel, name))
    ensures r.Ok? ==> WellKeyed(r.value.1)
  {
    match deletedRows
    case DbFailed => Err(())
    case DbOk(n) => if n != 1 then Ok((false, store)) else Ok((true, store - {NewKey(channel, name)}))
  }

  /** `Aliases::get`. */
  function Get(store: Store, channel: string, name: string): (r: Option<Alias>)
    requires WellKeyed(store)
    ensures r.Some? <==> NewKey(channel, name) in store
    ensures r.Some? ==> r.value.key == NewKey(channel, name) && r.value == store[NewKey(channel, name)]
  {
    var key := NewKey(channel, name);
    if key in store then Some(store[key]) else None
  }

  /** `Aliases::list`: the aliases of one channel. The order, that of the hash map, is not
      modelled. */
  function List(store: Store, channel: string): (r: set<Alias>)
    requires WellKeyed(store)
    ensures forall a :: a in r <==> a.key in store && store[a.key] == a && a.key.channel == channel
  {
    set k | k in store && k.channel == channel :: store[k]
  }

  /** `Alias::matches`: an alias applies when the first word, lower-cased, is its name;
      the result is that word as typed and the template rendered with the rest of the
      input, unless rendering fails. */
  function Matches(alias: Alias, first: Option<string>, rest: string, render: (string, string) -> Option<string>): (r: Option<(string, string)>)
    ensures r.Some? <==> first.Some? && Text.ToLower(first.value) == alias.key.name && render(alias.template, rest).Some?
    ensures r.Some? ==> r.value == (first.value, render(alias.template, rest).value)
  {
    match first
    case Some(w) =>
      if Text.ToLower(w) == alias.key.name then
        match render(alias.template, rest)
        case Some(out) => Some((w, out))
        case None => None
      else None
    case None => None
  }

  /** `Aliases::lookup`: the first alias of the channel, in the map's iteration order
      `order`, that applies. */
  function Lookup(store: Store, order: seq<Key>, channel: string, first: Option<string>, rest: string,
                  render: (string, string) -> Option<string>): (r: Option<(string, string)>)
    requires forall i :: 0 <= i < |order| ==> order[i] in store
    ensures r.None? <==> forall i :: 0 <= i < |order| && order[i].channel == channel ==>
                            Matches(store[order[i]], first, rest, render).None?
    ensures r.Some? ==> exists i :: 0 <= i < |order| && order[i].channel == channel &&
                            Matches(store[order[i]], first, rest, render) == r
  {
    if |order| == 0 then None
    else
      var k := order[0];
      var m := if k.channel == channel then Matches(store[k], first, rest, render) else None;
      if m.Some? then m
      else
        var r := Lookup(store, order[1..], channel, first, rest, render);
        assert forall i :: 1 <= i < |order| ==> order[1..][i - 1] == order[i];
        r
  }

  /** The iteration order does not matter: only the alias stored under the key the first
      word names can apply, so `lookup` is `get` followed by `matches`. */
  lemma LookupIsGet(store: Store, order: seq<Key>, channel: string, first: Option<string>, rest: string,
                    render: (string, string) -> Option<string>)
    requires WellKeyed(store) && first.Some?
    requires forall k :: k in store <==> k in order
    requires forall i :: 0 <= i < |order| ==> order[i] in store
    ensures Lookup(store, order, channel, first, rest, render)
         == match Get(store, channel, first.value)
            case None => None
            case Some(a) => Matches(a, first, rest, render)
  {
    var key := NewKey(channel, first.value);
    var r := Lookup(store, order, channel, first, rest, render);
    forall i | 0 <= i < |order| && order[i].channel == channel && Matches(store[order[i]], first, rest, render).Some?
      ensures order[i] == key
    {
    }
    if key in store {
      var i :| 0 <= i < |order| && order[i] == key;
      if Matches(store[key], first, rest, render).Some? {
        assert r.Some?;
      }
    }
  }

  /** `Aliases::rename`: fails with Conflict when the new key is taken (checked first),
      with Missing when the old key is absent, and otherwise moves the alias to the new
      key. The database's report only changes what is logged. */
  function Rename(store: Store, channel: string, from: string, to: string): (r: Result<Store, RenameError>)
    requires WellKeyed(store)
    ensures r == Err(Conflict) <==> NewKey(channel, to) in store
    ensures r == Err(Missing) <==> NewKey(channel, to) !in store && NewKey(channel, from) !in store
    ensures r.Ok? ==>
              var (f, t) := (NewKey(channel, from), NewKey(channel, to));
              && WellKeyed(r.value)
              && f !in r.value && t in r.value
              && r.value[t] == store[f].(key := t)
              && forall k :: k != f && k != t ==> (k in store <==> k in r.value) && (k in store ==> r.value[k] == store[k])
  {
    var (f, t) := (NewKey(channel, from), NewKey(channel, to));
    if t in store then Err(Conflict)
    else if f !in store then Err(Missing)
    else Ok((store - {f})[t := store[f].(key := t)])
  }

  /** Renaming an alias to its own name, in any case, is a Conflict. */
  lemma RenameToSelfConflicts(store: Store, channel: string, name: string, other: string)
    requires WellKeyed(store) && NewKey(channel, name) in store
    requires Text.ToLower(other) == Text.ToLower(name)
    ensures Rename(store, channel, name, other) == Err(Conflict)
  {
  }

  /** `Alias::from_db`: a row becomes an alias under the key its columns name. */
  function FromDb(row: Row): (a: Alias)
    ensures a.key == NewKey(row.channel, row.name)
    ensures a.template == row.text && a.group == row.group && a.disabled == row.disabled
  {
    Alias(NewKey(row.channel, row.name), row.text, row.group, row.disabled)
  }

  /** `Database::rename` as written: the update assigns the name column twice, and the
      last assignment, the channel, is the one that takes effect. */
  function DbRenameAsWritten(table: Table, from: Key, to: Key): (r: (Table, bool))
    requires TableKeyed(table)
    ensures r.1 <==> from in table
    ensures from in table ==> r.0 == (table - {from})[Key(from.channel, to.channel) := table[from].(name := to.channel)]
    ensures from !in table ==> r.0 == table
  {
    if from !in table then (table, false)
    else
      var row := table[from].(name := to.channel);
      ((table - {from})[Key(row.channel, row.name) := row], true)
  }

  /** `Database::rename` with the name column set to the new name. */
  function DbRename(table: Table, from: Key, to: Key): (r: (Table, bool))
    requires TableKeyed(table) && from.channel == to.channel
    ensures TableKeyed(r.0)
    ensures r.1 <==> from in table
    ensures from in table ==> r.0 == (table - {from})[to := table[from].(name := to.name)]
    ensures from !in table ==> r.0 == table
  {
    if from !in table then (table, false)
    else ((table - {from})[to := table[from].(name := to.name)], true)
  }

  /** As written, a renamed alias comes back from the table, after a restart, named
      after its channel instead of its new name. */
  lemma RenameLostOnReload()
    ensures var table := map[Key("#ch", "hi") := Row("#ch", "hi", "!hello", None, false)];
            var r := DbRenameAsWritten(table, Key("#ch", "hi"), Key("#ch", "hey"));
            && r.1
            && Key("#ch", "hey") !in r.0
            && FromDb(r.0[Key("#ch", "#ch")]).key == Key("#ch", "#ch")
  {
    var table := map[Key("#ch", "hi") := Row("#ch", "hi", "!hello", None, false)];
    var r := DbRenameAsWritten(table, Key("#ch", "hi"), Key("#ch", "hey"));
    assert Key("#ch", "#ch") != Key("#ch", "hey");
    assert Text.ToLower("#ch") == "#ch";
  }

  /** With the corrected update, reloading the renamed row yields exactly the alias the
      in-memory rename produced. */
  lemma RenameSurvivesReload(store: Store, table: Table, channel: string, from: string, to: string)
    requires WellKeyed(store) && TableKeyed(table)
    requires Rename(store, channel, from, to).Ok?
    requires NewKey(channel, from) in table && FromDb(table[NewKey(channel, from)]) == store[NewKey(channel, from)]
    ensures var t := NewKey(channel, to);
            var r := DbRename(table, NewKey(channel, from), t);
            t in r.0 && FromDb(r.0[t]) == Rename(store, channel, from, to).value[t]
  {
    var t := NewKey(channel, to);
    NewKeyIgnoresCase(channel, to);
  }
}

=== FILE: currency.dfy ===
/** The stream currency configuration (currency.rs `CurrencyBuilder`, `BalanceOf`,
    `Backend::balances_increment`). Connecting to a MySQL database is a parameter that
    reports whether the connection succeeded. */
module Currency {
  import opened Wrappers

  type i64 = x: int | -0x8000_0000_0000_0000 <= x < 0x8000_0000_0000_0000

  /** Where balances are kept. The default is the bot's own database. */
  datatype BackendType = BuiltIn | Mysql | Honkos

  /** `BackendType::default`. */
  function DefaultBackendType(): (r: BackendType)
    ensures r.BuiltIn?
  {
    BuiltIn
  }

  /** The table and columns of an external MySQL balance table. */
  datatype Schema = Schema(table: string, userColumn: string, balanceColumn: string)

  /** The fixed layout of the Honkos balance table. */
  const HonkosSchema := Schema("honkos", "username", "honko_balance")

  /** A connected backend. */
  datatype Backend = BuiltInBackend | MySqlBackend(url: string, schema: Schema)

  /** `CurrencyBuilder`, without the streamer and injector handles it carries along. */
  datatype Builder = Builder(
    mysqlSchema: Schema,
    ty: BackendType,
    enabled: bool,
    commandEnabled: bool,
    name: Option<string>,
    hasDb: bool,                 // whether a database handle was supplied
    mysqlUrl: Option<string>)

  datatype Currency = Currency(name: string, commandEnabled: bool, backend: Backend)

  /** `mysql::Backend::connect`: whether connecting for a channel to a URL with a schema
      succeeds. */
  type Connector = (string, string, Schema) -> bool

  /** `CurrencyBuilder::new`: everything off and unset, the default backend. */
  function NewBuilder(schema: Schema): (b: Builder)
    ensures b.ty == DefaultBackendType() && !b.enabled && !b.commandEnabled
    ensures b.name.None? && !b.hasDb && b.mysqlUrl.None? && b.mysqlSchema == schema
  {
    Builder(schema, DefaultBackendType(), false, false, None, false, None)
  }

  /** The schema a MySQL-backed currency uses: the configured one, except that Honkos
      always uses its own. */
  function SchemaFor(b: Builder): (r: Schema)
    ensures b.ty.Honkos? ==> r == HonkosSchema
    ensures b.ty.Mysql? ==> r == b.mysqlSchema
  {
    if b.ty.Honkos? then HonkosSchema else b.mysqlSchema
  }

  /** What building needs: the currency enabled and named, and a database handle for
      the built-in backend or a URL that connects for the MySQL ones. */
  predicate Buildable(b: Builder, connect: Connector) {
    && b.enabled
    && b.name.Some?
    && (b.ty.BuiltIn? ==> b.hasDb)
    && (!b.ty.BuiltIn? ==> b.mysqlUrl.Some? && connect("", b.mysqlUrl.value, SchemaFor(b)))
  }

  /** `CurrencyBuilder::build`. The backend is set up before the name is looked at, so a
      MySQL connection is attempted even when the missing name makes the build fail. */
  function Build(b: Builder, connect: Connector): (r: Option<Currency>)
    ensures !b.enabled ==> r.None?
    ensures r.Some? <==> Buildable(b, connect)
    ensures r.Some? ==> r.value.name == b.name.value && r.value.commandEnabled == b.commandEnabled
    ensures r.Some? && b.ty.BuiltIn? ==> r.value.backend == BuiltInBackend
    ensures r.Some? && !b.ty.BuiltIn? ==> r.value.backend == MySqlBackend(b.mysqlUrl.value, SchemaFor(b))
  {
    if !b.enabled then None
    else
      var backend :=
        match b.ty
        case BuiltIn => if b.hasDb then Some(BuiltInBackend) else None
        case _ =>
          if b.mysqlUrl.None? then None
          else if connect("", b.mysqlUrl.value, SchemaFor(b)) then Some(MySqlBackend(b.mysqlUrl.value, SchemaFor(b)))
          else None;
      match backend
      case None => None
      case Some(backend) =>
        match b.name
        case None => None
        case Some(name) => Some(Currency(name, b.commandEnabled, backend))
  }

  /** A fresh builder builds nothing. */
  lemma NewBuilderBuildsNothing(schema: Schema, connect: Connector)
    ensures Build(NewBuilder(schema), connect).None?
  {
  }

  /** `CurrencyBuilder::build_and_inject`: the injected currency becomes the one built,
      and is cleared exactly when nothing is built. */
  function BuildAndInject(b: Builder, connect: Connector): (r: (Option<Currency>, Option<Currency>))
    ensures r.0 == Build(b, connect)
    ensures r.1.None? <==> !Buildable(b, connect)
    ensures r.1 == r.0
  {
    var built := Build(b, connect);
    (built, built)
  }

  /** `BalanceOf::watch_time`: the stored watch time in seconds, a negative count
      reading as zero. */
  function WatchTime(watchTime: i64): (seconds: nat)
    ensures watchTime < 0 ==> seconds == 0
    ensures watchTime >= 0 ==> seconds == watchTime
    ensures seconds < 0x8000_0000_0000_0000
  {
    if watchTime < 0 then 0 else watchTime
  }

  /** The request a balance increment makes of a backend. */
  datatype IncrementCall =
    | BuiltInIncrement(channel: string, users: set<string>, amount: i64, watchTime: i64)
    | MySqlIncrement(channel: string, users: set<string>, amount: i64)

  /** `Backend::balances_increment`: the MySQL backend is not told the watch time. */
  function BalancesIncrement(backend: Backend, channel: string, users: set<string>,
                             amount: i64, watchTime: i64): (r: IncrementCall)
    ensures backend.BuiltInBackend? <==> r.BuiltInIncrement?
    ensures r.channel == channel && r.users == users && r.amount == amount
    ensures r.BuiltInIncrement? ==> r.watchTime == watchTime
  {
    match backend
    case BuiltInBackend => BuiltInIncrement(channel, users, amount, watchTime)
    case MySqlBackend(_, _) => MySqlIncrement(channel, users, amount)
  }

  /** Watch time reported to a MySQL backend is lost: the request does not depend on it. */
  lemma MySqlIgnoresWatchTime(backend: Backend, channel: string, users: set<string>,
                              amount: i64, w1: i64, w2: i64)
    requires backend.MySqlBackend?
    ensures BalancesIncrement(backend, channel, users, amount, w1)
         == BalancesIncrement(backend, channel, users, amount, w2)
  {
  }
}

=== FILE: dispatch.dfy ===
/** Command resolution and authorization (irc.rs `process_command`). Command handlers
    are known by name and by the scope they require; their bodies are not modelled, only
    whether they are invoked. */
module Dispatch {
  import opened Wrappers
  import opened Principals

  /** A registered command handler and the scope it requires, if any. */
  datatype Handler = Handler(name: string, scope: Option<Scope>)

  /** The commands the bot knows about in a channel. */
  datatype Registry = Registry(
    currencyCommand: Option<string>,   // the name of the currency command, when configured
    currencyHandler: Handler,
    handlers: map<string, Handler>,
    scripts: set<string>)

  /** What processing a command does. `Ping` replies "What do you want?" and broadcasts
      a ping on the global bus. */
  datatype Action =
    | Ping
    | Refuse(reply: string)
    | RunHandler(handler: Handler)
    | RunScript(name: string)
    | Ignore

  const NotAllowed := "You are not allowed to run that command"
  const NotADemocracy := "Do you think this is a democracy? LUL"
  const SomethingWentWrong := "Sorry, something went wrong :("

  /** The handler a name resolves to: the currency handler when the name is the currency
      command's, else the registered handler of that name. */
  function Resolve(reg: Registry, command: string): (r: Option<Handler>)
    ensures reg.currencyCommand == Some(command) ==> r == Some(reg.currencyHandler)
    ensures reg.currencyCommand != Some(command) ==>
              (r.Some? <==> command in reg.handlers) && (r.Some? ==> r.value == reg.handlers[command])
  {
    if reg.currencyCommand == Some(command) then Some(reg.currencyHandler)
    else if command in reg.handlers then Some(reg.handlers[command])
    else None
  }

  /** `process_command`: "ping" first, then the currency command, then the registered
      handlers, then the scripts. A handler whose scope the user lacks is not run, and the
      user is told so in words that depend on whether they moderate. */
  function ProcessCommand(reg: Registry, command: string, user: ChatUser,
                          isSubscriber: SubscriberLookup, testAny: ScopeTest): (r: Action)
    ensures r.Ping? <==> command == "ping"
    ensures command != "ping" && Resolve(reg, command).Some? && Resolve(reg, command).value.scope.Some?
            && !HasScope(user, Resolve(reg, command).value.scope.value, isSubscriber, testAny) ==>
              r == Refuse(if IsModerator(user) then NotAllowed else NotADemocracy)
    ensures command != "ping" && Resolve(reg, command).Some?
            && (Resolve(reg, command).value.scope.None?
                || HasScope(user, Resolve(reg, command).value.scope.value, isSubscriber, testAny)) ==>
              r == RunHandler(Resolve(reg, command).value)
    ensures command != "ping" && Resolve(reg, command).None? && command in reg.scripts ==> r == RunScript(command)
    ensures r.RunHandler? ==> Resolve(reg, command) == Some(r.handler)
    ensures r.RunHandler? && r.handler.scope.Some? ==> HasScope(user, r.handler.scope.value, isSubscriber, testAny)
    ensures r.Refuse? ==> r.reply == (if IsModerator(user) then NotAllowed else NotADemocracy)
    ensures r.Refuse? ==> Resolve(reg, command).Some? && Resolve(reg, command).value.scope.Some?
    ensures r.RunScript? ==> r.name == command && command in reg.scripts && Resolve(reg, command).None?
    ensures r.Ignore? <==> command != "ping" && Resolve(reg, command).None? && command !in reg.scripts
  {
    if command == "ping" then Ping
    else
      match Resolve(reg, command)
      case Some(h) =>
        if h.scope.Some? && !HasScope(user, h.scope.value, isSubscriber, testAny) then
          Refuse(if IsModerator(user) then NotAllowed else NotADemocracy)
        else
          RunHandler(h)
      case None =>
        if command in reg.scripts then RunScript(command) else Ignore
  }

  /** A handler runs exactly when it resolves and its scope, if any, is held. */
  lemma RunsIffAuthorized(reg: Registry, command: string, user: ChatUser,
                          isSubscriber: SubscriberLookup, testAny: ScopeTest, h: Handler)
    requires command != "ping" && Resolve(reg, command) == Some(h)
    ensures ProcessCommand(reg, command, user, isSubscriber, testAny) == RunHandler(h)
            <==> h.scope.None? || HasScope(user, h.scope.value, isSubscriber, testAny)
  {
  }

  /** A message the bot injects runs only unscoped handlers: it holds no scope, and, as
      it counts as a moderator's, is refused with the moderator wording. */
  lemma InjectedRefusedScoped(reg: Registry, command: string, user: ChatUser,
                              isSubscriber: SubscriberLookup, testAny: ScopeTest)
    requires user.principal.Injected? && command != "ping"
    requires Resolve(reg, command).Some? && Resolve(reg, command).value.scope.Some?
    ensures ProcessCommand(reg, command, user, isSubscriber, testAny) == Refuse(NotAllowed)
  {
  }

  /** The currency command shadows a registered handler of the same name. */
  lemma CurrencyShadowsHandlers(reg: Registry, command: string, user: ChatUser,
                                isSubscriber: SubscriberLookup, testAny: ScopeTest)
    requires command != "ping" && reg.currencyCommand == Some(command)
    requires reg.currencyHandler.scope.None?
    ensures ProcessCommand(reg, command, user, isSubscriber, testAny) == RunHandler(reg.currencyHandler)
  {
  }

  /** How a handler run fails: with a message meant for the user, or otherwise. */
  datatype Failure = Respond(message: string) | Failed

  /** The reply to a failed handler: its own message, else an apology. A failed script
      always gets the apology. */
  function FailureReply(f: Failure): (r: string)
    ensures f.Respond? ==> r == f.message
    ensures f.Failed? ==> r == SomethingWentWrong
  {
    match f
    case Respond(m) => m
    case Failed => SomethingWentWrong
  }
}

=== FILE: moderation.dfy ===
/** The moderation decision for a chat message (irc.rs `should_be_deleted`,
    `test_bad_words`, `has_bad_link`, `delete_message`). The word splitter, URL extractor,
    bad-word tester and template renderer are parameters. */
module Moderation {
  import opened Wrappers
  import Tags
  import opened Principals

  /** A listed bad word, with the template of the notice posted when it is used. */
  datatype BadWord = BadWord(word: string, why: Option<string>)

  /** A URL found in a message; some URLs have no host. */
  datatype Url = Url(host: Option<string>)

  /** Renders a notice template for a user's display name and the streamer's login;
      None when rendering fails. */
  type Renderer = (string, Option<string>, string) -> Option<string>

  /** The moderation settings of a channel. */
  datatype Settings = Settings(
    badWordsEnabled: bool,
    urlWhitelistEnabled: bool,
    whitelistedHosts: set<string>)

  /** The decision on a message: whether to delete it and the notice to post. */
  datatype Verdict = Verdict(delete: bool, notice: Option<string>)

  /** The index of the first word the tester reports as bad. */
  function FirstBad(words: seq<string>, tester: string -> Option<BadWord>): (r: Option<nat>)
    ensures r.None? <==> forall i :: 0 <= i < |words| ==> tester(words[i]).None?
    ensures r.Some? ==> r.value < |words| && tester(words[r.value]).Some?
    ensures r.Some? ==> forall i :: 0 <= i < r.value ==> tester(words[i]).None?
  {
    if |words| == 0 then None
    else if tester(words[0]).Some? then Some(0)
    else
      match FirstBad(words[1..], tester)
      case None => None
      case Some(i) => Some(i + 1)
  }

  /** `test_bad_words`: the entry of the first word the tester matches. */
  function TestBadWords(words: seq<string>, tester: string -> Option<BadWord>): (r: Option<BadWord>)
    ensures r.None? <==> forall i :: 0 <= i < |words| ==> tester(words[i]).None?
    ensures r.Some? ==> exists i :: 0 <= i < |words| && tester(words[i]) == r
                                  && forall j :: 0 <= j < i ==> tester(words[j]).None?
  {
    match FirstBad(words, tester)
    case None => None
    case Some(i) => tester(words[i])
  }

  /** `has_bad_link`: some URL has a host that is not whitelisted. */
  function HasBadLink(urls: seq<Url>, whitelist: set<string>): (r: bool)
    ensures r <==> exists i :: 0 <= i < |urls| && urls[i].host.Some? && urls[i].host.value !in whitelist
  {
    if |urls| == 0 then false
    else if urls[0].host.Some? && urls[0].host.value !in whitelist then true
    else
      var r := HasBadLink(urls[1..], whitelist);
      assert forall i :: 1 <= i < |urls| ==> urls[1..][i - 1] == urls[i];
      r
  }

  /** `should_be_deleted`: a moderator's message stays. With bad words enabled, a bad word
      deletes the message and posts its rendered notice, if it has one that renders.
      Otherwise a non-whitelisted link deletes it, when the URL whitelist is enabled and
      the sender lacks the bypass scope. */
  function ShouldBeDeleted(user: ChatUser, streamerLogin: string, settings: Settings,
                           words: seq<string>, urls: seq<Url>,
                           tester: string -> Option<BadWord>, render: Renderer,
                           isSubscriber: SubscriberLookup, testAny: ScopeTest): (r: Verdict)
    ensures IsModerator(user) ==> r == Verdict(false, None)
    ensures r.notice.Some? ==> r.delete
    ensures r.delete <==>
              && !IsModerator(user)
              && ((settings.badWordsEnabled && TestBadWords(words, tester).Some?)
                  || (!HasScope(user, ChatBypassUrlWhitelist, isSubscriber, testAny)
                      && settings.urlWhitelistEnabled
                      && HasBadLink(urls, settings.whitelistedHosts)))
    ensures r.notice.Some? ==>
              exists i :: 0 <= i < |words| && tester(words[i]).Some? && tester(words[i]).value.why.Some?
                       && render(tester(words[i]).value.why.value, DisplayName(user), streamerLogin) == r.notice
    ensures !IsModerator(user) && settings.badWordsEnabled && TestBadWords(words, tester).Some? ==>
              var w := TestBadWords(words, tester).value;
              r.notice == if w.why.Some? then render(w.why.value, DisplayName(user), streamerLogin) else None
    ensures IsModerator(user) || !settings.badWordsEnabled || TestBadWords(words, tester).None? ==> r.notice == None
  {
    if IsModerator(user) then Verdict(false, None)
    else
      var bad := if settings.badWordsEnabled then TestBadWords(words, tester) else None;
      match bad
      case Some(w) =>
        Verdict(true, if w.why.Some? then render(w.why.value, DisplayName(user), streamerLogin) else None)
      case None =>
        Verdict(!HasScope(user, ChatBypassUrlWhitelist, isSubscriber, testAny)
                && settings.urlWhitelistEnabled
                && HasBadLink(urls, settings.whitelistedHosts), None)
  }

  /** Messages the bot injects are never deleted: they count as a moderator's. */
  lemma InjectedNeverDeleted(user: ChatUser, streamerLogin: string, settings: Settings,
                             words: seq<string>, urls: seq<Url>,
                             tester: string -> Option<BadWord>, render: Renderer,
                             isSubscriber: SubscriberLookup, testAny: ScopeTest)
    requires user.principal.Injected?
    ensures !ShouldBeDeleted(user, streamerLogin, settings, words, urls, tester, render, isSubscriber, testAny).delete
  {
  }

  /** `delete_message`: the id of the message to delete, known only from its `id` tag. */
  function DeleteTarget(tags: Tags.Tags): (r: Option<string>)
    ensures r.Some? <==> tags.id.Some?
    ensures r.Some? ==> r.value == tags.id.value
  {
    tags.id
  }
}

=== FILE: partition.dfy ===
/** The response formatter: packs displayed result items into chat lines of bounded
    byte width (irc.rs `PartitionResponse`, `partition_response`, `User::respond_lines`).
    Lengths are UTF-8 byte lengths, as Rust's `str::len`. */
module Partition {
  import opened Wrappers
  import Text

  type byte = b: int | 0 <= b < 256
  type Bytes = seq<byte>

  /** The UTF-8 encoding of an ASCII string: the byte form in which the fixed texts of
      `HiddenNotice` and the truncation tail are measured against the width. */
  function Ascii(s: string): (r: Bytes)
    requires forall i :: 0 <= i < |s| ==> s[i] as int < 128
    ensures |r| == |s|
    ensures forall i :: 0 <= i < |s| ==> r[i] == s[i] as int
  {
    if |s| == 0 then [] else [s[0] as int] + Ascii(s[1..])
  }

  /** Reads bytes back as characters, one per byte, so that `HiddenNotice`'s contract can
      speak of the decimal digits inside the notice. */
  function Chars(b: Bytes): (r: string)
    ensures |r| == |b|
    ensures forall i :: 0 <= i < |b| ==> r[i] as int == b[i]
  {
    if |b| == 0 then [] else [b[0] as char] + Chars(b[1..])
  }

  /** Reading an ASCII string's encoding gives the string back. */
  lemma AsciiChars(s: string)
    requires forall i :: 0 <= i < |s| ==> s[i] as int < 128
    ensures Chars(Ascii(s)) == s
  {
    assert forall i :: 0 <= i < |s| ==> Chars(Ascii(s))[i] == s[i];
  }

  /** The ellipsis appended to a cut item: three full stops. */
  const Tail: Bytes := [46, 46, 46]

  /** Rust's `str::is_char_boundary`: an index at either end, or one whose byte is not
      a UTF-8 continuation byte (10xxxxxx). */
  predicate IsCharBoundary(s: Bytes, i: nat) {
    i == 0 || i == |s| || (i < |s| && (s[i] < 0x80 || s[i] >= 0xC0))
  }

  /** Steps down from `i` to the nearest char boundary. */
  function BackOff(s: Bytes, i: nat): (r: nat)
    ensures r <= i && IsCharBoundary(s, r)
    ensures forall j :: r < j <= i ==> !IsCharBoundary(s, j)
  {
    if i > 0 && !IsCharBoundary(s, i) then BackOff(s, i - 1) else i
  }

  /** An item that has to stand alone on a line: its longest prefix of at most
      `width - 3` bytes ending on a char boundary, followed by the ellipsis. */
  function Truncate(item: Bytes, width: nat): (r: Bytes)
    requires width >= 3
    ensures 3 <= |r| <= width && |r| - 3 <= |item|
    ensures r[..|r| - 3] == item[..|r| - 3] && r[|r| - 3..] == Tail
    ensures IsCharBoundary(item, |r| - 3)
    ensures forall j :: |r| - 3 < j <= width - 3 && j <= |item| ==> !IsCharBoundary(item, j)
    ensures |item| >= width - 3 && IsCharBoundary(item, width - 3) ==> |r| == width
  {
    var index := BackOff(item, if |item| < width - 3 then |item| else width - 3);
    item[..index] + Tail
  }

  /** Byte strings joined with a separator. */
  function Join(parts: seq<Bytes>, sep: Bytes): Bytes {
    if |parts| == 0 then []
    else if |parts| == 1 then parts[0]
    else parts[0] + sep + Join(parts[1..], sep)
  }

  /** One call of the iterator's `next`: the line it yields, if any, and the items it
      has not consumed. */
  datatype Step = Step(line: Option<Bytes>, rest: seq<Bytes>)

  /** The line buffer and its length counter agree: `len` counts the buffer plus one
      trailing separator once anything has been consumed. */
  predicate Buffered(buf: Bytes, len: nat, sep: Bytes, width: nat) {
    (len == 0 ==> buf == []) && (len > 0 ==> |buf| + |sep| == len) && |buf| <= width
  }

  /** The loop of `next` from a given buffer state. An item fits when `len` plus its
      length is at most `width`; an item that does not fit ends a non-empty line and is
      dropped, or is cut and yielded alone when the line is still empty. */
  function Fill(items: seq<Bytes>, width: nat, sep: Bytes, buf: Bytes, len: nat): (r: Step)
    requires width >= 3 && Buffered(buf, len, sep, width)
    ensures |r.rest| <= |items| && r.rest == items[|items| - |r.rest|..]
    ensures r.line.Some? ==> |r.rest| < |items| || buf != []
    ensures r.line.Some? ==> 0 < |r.line.value| <= width
    decreases |items|
  {
    if |items| == 0 then
      Step(if buf != [] then Some(buf) else None, [])
    else
      var item := items[0];
      if len + |item| <= width then
        var buf' := if len > 0 then buf + sep + item else buf + item;
        var r := Fill(items[1..], width, sep, buf', len + |item| + |sep|);
        assert items[1..][|items[1..]| - |r.rest|..] == items[|items| - |r.rest|..];
        r
      else if buf == [] then
        Step(Some(Truncate(item, width)), items[1..])
      else
        Step(Some(buf), items[1..])
  }

  /** `PartitionResponse::next`: starts every line from an empty buffer. */
  function Next(items: seq<Bytes>, width: nat, sep: Bytes): (r: Step)
    requires width >= 3
    ensures |r.rest| <= |items| && r.rest == items[|items| - |r.rest|..]
    ensures r.line.Some? ==> |r.rest| < |items| && 0 < |r.line.value| <= width
  {
    Fill(items, width, sep, [], 0)
  }

  /** Every line the partitioner yields, in order. */
  function Partition(items: seq<Bytes>, width: nat, sep: Bytes): (lines: seq<Bytes>)
    requires width >= 3
    ensures forall i :: 0 <= i < |lines| ==> 0 < |lines[i]| <= width
    decreases |items|
  {
    var s := Next(items, width, sep);
    match s.line
    case None => []
    case Some(l) => [l] + Partition(s.rest, width, sep)
  }

  /** The buffer state after the items `done` have all been appended to the line. */
  function LenAfter(done: seq<Bytes>, sep: Bytes): nat {
    if done == [] then 0 else |Join(done, sep)| + |sep|
  }

  lemma {:induction false} JoinSnoc(done: seq<Bytes>, x: Bytes, sep: Bytes)
    ensures Join(done + [x], sep) == if done == [] then x else Join(done, sep) + sep + x
  {
    if |done| > 1 {
      assert (done + [x])[1..] == done[1..] + [x];
      JoinSnoc(done[1..], x, sep);
    } else if |done| == 1 {
      assert (done + [x])[1..] == [x];
    }
  }

  lemma {:induction false} JoinAppendLength(a: seq<Bytes>, b: seq<Bytes>, sep: Bytes)
    ensures |Join(a, sep)| <= |Join(a + b, sep)|
    ensures a != [] && b != [] ==> |Join(a, sep)| + |sep| + |b[0]| <= |Join(a + b, sep)|
  {
    if |a| > 1 {
      assert (a + b)[1..] == a[1..] + b;
      JoinAppendLength(a[1..], b, sep);
    } else if |a| == 1 && |b| > 0 {
      assert (a + b)[1..] == b;
      assert |Join(b, sep)| >= |b[0]| by {
        if |b| > 1 { }
      }
    } else if |a| == 0 {
      assert a + b == b;
      if |b| > 1 { }
    }
  }

  /** One item that fits is appended to the buffer behind a separator. */
  lemma {:induction false} FillOne(done: seq<Bytes>, x: Bytes, rest: seq<Bytes>, width: nat, sep: Bytes)
    requires width >= 3
    requires |Join(done + [x], sep)| <= width
    requires Buffered(Join(done, sep), LenAfter(done, sep), sep, width)
    ensures Buffered(Join(done + [x], sep), LenAfter(done + [x], sep), sep, width)
    ensures Fill([x] + rest, width, sep, Join(done, sep), LenAfter(done, sep))
         == Fill(rest, width, sep, Join(done + [x], sep), LenAfter(done + [x], sep))
  {
    var buf, len := Join(done, sep), LenAfter(done, sep);
    var buf', len' := Join(done + [x], sep), LenAfter(done + [x], sep);
    JoinSnoc(done, x, sep);
    if done != [] {
      assert buf' == buf + sep + x;
      assert len' == len + |x| + |sep|;
    } else {
      assert buf' == buf + x;
      assert len' == len + |x| + |sep|;
    }
    assert len + |x| <= width;
    assert buf' == if len > 0 then buf + sep + x else buf + x;
    FitStep(x, rest, width, sep, buf, len);
  }

  /** An item that fits is appended to the buffer and the loop goes on with the rest. */
  lemma FitStep(x: Bytes, rest: seq<Bytes>, width: nat, sep: Bytes, buf: Bytes, len: nat)
    requires width >= 3 && Buffered(buf, len, sep, width) && len + |x| <= width
    requires Buffered(if len > 0 then buf + sep + x else buf + x, len + |x| + |sep|, sep, width)
    ensures Fill([x] + rest, width, sep, buf, len)
         == Fill(rest, width, sep, if len > 0 then buf + sep + x else buf + x, len + |x| + |sep|)
  {
    assert ([x] + rest)[0] == x && ([x] + rest)[1..] == rest;
  }

  /** Items that fit are appended one after the other: the buffer stays the join of
      everything consumed so far. */
  lemma {:induction false} FillPrefix(done: seq<Bytes>, pre: seq<Bytes>, rest: seq<Bytes>,
                                      width: nat, sep: Bytes)
    requires width >= 3
    requires |Join(done + pre, sep)| <= width
    requires Buffered(Join(done, sep), LenAfter(done, sep), sep, width)
    ensures Buffered(Join(done + pre, sep), LenAfter(done + pre, sep), sep, width)
    ensures Fill(pre + rest, width, sep, Join(done, sep), LenAfter(done, sep))
         == Fill(rest, width, sep, Join(done + pre, sep), LenAfter(done + pre, sep))
    decreases |pre|
  {
    if |pre| == 0 {
      assert done + pre == done && pre + rest == rest;
    } else {
      var x := pre[0];
      var done' := done + [x];
      assert done + pre == done' + pre[1..];
      assert pre + rest == [x] + (pre[1..] + rest);
      JoinAppendLength(done', pre[1..], sep);
      FillOne(done, x, pre[1..] + rest, width, sep);
      FillPrefix(done', pre[1..], rest, width, sep);
    }
  }

  /** If all items joined by the separator fit in `width`, the partitioner yields a
      single line equal to that join (none when the join is empty). */
  lemma FitsInOneLine(items: seq<Bytes>, width: nat, sep: Bytes)
    requires width >= 3 && |Join(items, sep)| <= width
    ensures Partition(items, width, sep) == if Join(items, sep) == [] then [] else [Join(items, sep)]
  {
    var j := Join(items, sep);
    assert [] + items == items && items + [] == items;
    assert Join([], sep) == [] && LenAfter([], sep) == 0;
    FillPrefix([], items, [], width, sep);
    var s := Next(items, width, sep);
    assert s == Fill([], width, sep, j, LenAfter(items, sep));
    assert s == Step(if j != [] then Some(j) else None, []);
    assert Partition([], width, sep) == [];
  }

  /** An item that overflows a non-empty line ends that line and is consumed: the line
      is the join of the items before it, and the next line starts after it. */
  lemma OverflowEndsLine(pre: seq<Bytes>, x: Bytes, post: seq<Bytes>, width: nat, sep: Bytes)
    requires width >= 3 && |Join(pre, sep)| <= width && Join(pre, sep) != []
    requires |Join(pre, sep)| + |sep| + |x| > width
    ensures Next(pre + [x] + post, width, sep) == Step(Some(Join(pre, sep)), post)
  {
    assert [] + pre == pre;
    assert pre + [x] + post == pre + ([x] + post);
    FillPrefix([], pre, [x] + post, width, sep);
    assert ([x] + post)[1..] == post;
  }

  /** An item that does not fit on an empty line is yielded alone, cut on a char
      boundary and followed by the ellipsis. */
  lemma OversizedItemAlone(x: Bytes, post: seq<Bytes>, width: nat, sep: Bytes)
    requires width >= 3 && |x| > width
    ensures Next([x] + post, width, sep) == Step(Some(Truncate(x, width)), post)
  {
    assert ([x] + post)[1..] == post;
  }

  /** The separator `respond_lines` puts between items. */
  function Separator(): Bytes {
    Ascii(" | ")
  }

  /** The lines `respond_lines` cuts a result set into: 360 bytes wide. */
  function Lines(items: seq<Bytes>): (lines: seq<Bytes>)
    ensures forall i :: 0 <= i < |lines| ==> 0 < |lines[i]| <= 360
  {
    Partition(items, 360, Separator())
  }

  /** The notice appended to the first line when `hidden` more lines are not shown. */
  function HiddenNotice(hidden: nat): (r: Bytes)
    ensures |r| > 23
    ensures r[..5] == Ellipsis
    ensures r[|r| - 18..] == NotShown
    ensures var d := Chars(r[5..|r| - 18]);
            && (forall i :: 0 <= i < |d| ==> '0' <= d[i] <= '9')
            && Text.DecimalValue(d) == hidden
            && (hidden > 0 ==> d[0] != '0')
  {
    var digits := Text.NatToString(hidden);
    Around(Ellipsis, digits, NotShown);
    Ellipsis + Ascii(digits) + NotShown
  }

  /** The bytes of " ... ", which open the notice. */
  const Ellipsis: Bytes := [32, 46, 46, 46, 32]

  /** The bytes of " line(s) not shown", which close the notice. */
  const NotShown: Bytes := [32, 108, 105, 110, 101, 40, 115, 41, 32, 110, 111, 116, 32, 115, 104, 111, 119, 110]

  /** The two constants spell the notice's words. */
  lemma NoticeWords()
    ensures Chars(Ellipsis) == " ... "
    ensures Chars(NotShown) == " line(s) not shown"
  {
    Spells(Ellipsis, " ... ");
    Spells(NotShown, " line(s) not shown");
  }

  lemma Spells(b: Bytes, s: string)
    requires |b| == |s| && forall i :: 0 <= i < |s| ==> b[i] == s[i] as int
    ensures Chars(b) == s
  {
    assert forall i :: 0 <= i < |s| ==> Chars(b)[i] == s[i];
  }

  /** Text framed by two byte strings can be read back from between them. */
  lemma Around(a: Bytes, digits: string, c: Bytes)
    requires forall i :: 0 <= i < |digits| ==> digits[i] as int < 128
    ensures var r := a + Ascii(digits) + c;
            && |r| == |a| + |digits| + |c|
            && r[..|a|] == a && r[|r| - |c|..] == c
            && Chars(r[|a|..|r| - |c|]) == digits
  {
    var r := a + Ascii(digits) + c;
    assert r[|a|..|r| - |c|] == Ascii(digits);
    AsciiChars(digits);
  }

  /** `User::respond_lines`: the text sent for a result set, before the user-name prefix
      `respond` adds. With no line it is `empty`; with one line, that line; with more,
      the first line followed by how many lines were not shown. */
  function RespondLines(items: seq<Bytes>, empty: Bytes): (r: Bytes)
    ensures Lines(items) == [] ==> r == empty
    ensures |Lines(items)| == 1 ==> r == Lines(items)[0] && |r| <= 360
    ensures |Lines(items)| > 1 ==> r == Lines(items)[0] + HiddenNotice(|Lines(items)| - 1)
  {
    var lines := Lines(items);
    if |lines| == 0 then empty
    else if |lines| == 1 then lines[0]
    else lines[0] + HiddenNotice(|lines| - 1)
  }

  /** A result set whose joined items fit in 360 bytes is sent whole, as one line. */
  lemma RespondLinesFits(items: seq<Bytes>, empty: Bytes)
    requires |Join(items, Separator())| <= 360
    ensures RespondLines(items, empty) == if Join(items, Separator()) == [] then empty else Join(items, Separator())
  {
    FitsInOneLine(items, 360, Separator());
    assert Lines(items) == Partition(items, 360, Separator());
  }
}

=== FILE: pipeline.dfy ===
/** What the chat handler does with one message and with a moderator/VIP notice
    (irc.rs `Handler::process_message`, the NOTICE arm of `Handler::handle`). Word
    splitting, URL extraction and the template command table are parameters. */
module Pipeline {
  import opened Wrappers
  import Tags
  import opened Principals
  import AliasExpansion
  import Dispatch
  import Moderation
  import RoomMembers

  /** The tokenizers `process_message` relies on. */
  datatype Tokenizers = Tokenizers(
    words: string -> seq<string>,          // `utils::Words`
    trimmedWords: string -> seq<string>,   // `utils::TrimmedWords`
    urls: string -> seq<Moderation.Url>)   // `utils::Urls`

  /** What the template command table does with a message's words: nothing matches, a
      template matches and its rendering is posted, or bumping its count or rendering it
      fails. */
  datatype TemplateOutcome = NoTemplate | Rendered(text: string) | TemplateFailed

  /** The oracles and settings a channel brings to message processing. */
  datatype Channel = Channel(
    streamerLogin: string,
    templates: (ChatUser, seq<string>) -> TemplateOutcome,  // `Commands::resolve`, `increment`, `render`
    registry: Dispatch.Registry,
    settings: Moderation.Settings,
    tester: string -> Option<Moderation.BadWord>,
    render: Moderation.Renderer,
    isSubscriber: SubscriberLookup,
    testAny: ScopeTest)

  /** The observable effects of processing one message. */
  datatype Effects = Effects(
    idleSeen: bool,                    // the idle counter was bumped
    replies: seq<string>,              // messages posted and replies to the sender, in order
    command: Option<Dispatch.Action>,  // the outcome of a `!`-command
    deleted: Option<string>,           // the id of the message deleted
    failed: bool)                      // `process_message` returned an error

  /** The command a message carries: its first word without the leading `!`. */
  function CommandOf(words: seq<string>): (r: Option<string>)
    ensures r.Some? <==> |words| > 0 && |words[0]| > 0 && words[0][0] == '!'
    ensures r.Some? ==> words[0] == "!" + r.value
  {
    if |words| > 0 && |words[0]| > 0 && words[0][0] == '!' then Some(words[0][1..]) else None
  }

  /** `process_message`. Aliases are expanded first; a cyclic expansion replies with the
      path and stops, so neither commands nor moderation see the message. Otherwise the
      fully expanded message goes to the template commands, whose failure ends processing
      with an error; then it is dispatched as a `!`-command and judged for deletion. */
  method ProcessMessage(user: ChatUser, ch: Channel, tok: Tokenizers,
                        resolve: AliasExpansion.Resolver, aliasKeys: set<string>, message: string)
    returns (x: AliasExpansion.Expansion, e: Effects)
    requires forall m :: resolve(m).Some? ==> resolve(m).value.0 in aliasKeys
    ensures e.idleSeen <==> !IsStreamer(user)
    ensures x.Cycle? ==> e == Effects(!IsStreamer(user), [AliasExpansion.CycleMessage(x.path)], None, None, false)
    ensures AliasExpansion.Explains(resolve, message, x)
    ensures e.failed <==> x.Expanded? && ch.templates(user, tok.words(x.message)).TemplateFailed?
    ensures e.failed ==> e == Effects(!IsStreamer(user), [], None, None, true)
    ensures x.Expanded? && !e.failed ==>
              var name := CommandOf(tok.words(x.message));
              && (e.command.Some? <==>
                    name.Some? && Dispatch.ProcessCommand(ch.registry, name.value, user, ch.isSubscriber, ch.testAny) != Dispatch.Ignore)
              && (e.command.Some? ==>
                    e.command.value == Dispatch.ProcessCommand(ch.registry, name.value, user, ch.isSubscriber, ch.testAny))
    ensures x.Expanded? && !e.failed ==>
              var said := ch.templates(user, tok.words(x.message));
              var verdict := Moderation.ShouldBeDeleted(user, ch.streamerLogin, ch.settings, tok.trimmedWords(x.message),
                                                        tok.urls(x.message), ch.tester, ch.render, ch.isSubscriber, ch.testAny);
              && (e.deleted.Some? <==> verdict.delete && user.tags.id.Some?)
              && e.replies == (if said.Rendered? then [said.text] else [])
                              + (if verdict.notice.Some? then [verdict.notice.value] else [])
    ensures e.deleted.Some? ==> !IsModerator(user) && e.deleted == user.tags.id
  {
    x := AliasExpansion.Expand(resolve, aliasKeys, message);
    if x.Cycle? {
      e := Effects(!IsStreamer(user), [AliasExpansion.CycleMessage(x.path)], None, None, false);
      return;
    }
    var m := x.message;
    var said := ch.templates(user, tok.words(m));
    if said.TemplateFailed? {
      e := Effects(!IsStreamer(user), [], None, None, true);
      return;
    }
    var command: Option<Dispatch.Action> := None;
    var name := CommandOf(tok.words(m));
    if name.Some? {
      var action := Dispatch.ProcessCommand(ch.registry, name.value, user, ch.isSubscriber, ch.testAny);
      if action != Dispatch.Ignore {
        command := Some(action);
      }
    }
    var verdict := Moderation.ShouldBeDeleted(user, ch.streamerLogin, ch.settings, tok.trimmedWords(m),
                                              tok.urls(m), ch.tester, ch.render, ch.isSubscriber, ch.testAny);
    var replies := (if said.Rendered? then [said.text] else [])
                   + (if verdict.notice.Some? then [verdict.notice.value] else []);
    var deleted := if verdict.delete then Moderation.DeleteTarget(user.tags) else None;
    e := Effects(!IsStreamer(user), replies, command, deleted, false);
  }

  /** The moderators and VIPs the bot believes the channel has. */
  datatype Roster = Roster(moderators: set<string>, vips: set<string>)

  /** The outcome of a NOTICE: a failed login shuts the handler down, else the roster
      as updated. */
  datatype NoticeOutcome = Shutdown | Updated(roster: Roster)

  /** The NOTICE arm of `handle`: a failed login takes precedence over the notice id;
      "no_mods" and "no_vips" clear a list, "room_mods" and "vips_success" replace it
      with the members the notice lists, and any other notice changes nothing. */
  function HandleNotice(roster: Roster, msgId: Option<string>, message: string): (r: NoticeOutcome)
    ensures r.Shutdown? <==> message == "Login authentication failed"
    ensures r.Updated? ==> r.roster.vips == roster.vips || r.roster.moderators == roster.moderators
    ensures r.Updated? && msgId == Some("room_mods") ==>
              r.roster == Roster(RoomMembers.ParseRoomMembers(message), roster.vips)
    ensures r.Updated? && msgId == Some("vips_success") ==>
              r.roster == Roster(roster.moderators, RoomMembers.ParseRoomMembers(message))
    ensures r.Updated? && msgId == Some("no_mods") ==> r.roster == roster.(moderators := {})
    ensures r.Updated? && msgId == Some("no_vips") ==> r.roster == roster.(vips := {})
    ensures r.Updated? && msgId !in {Some("room_mods"), Some("vips_success"), Some("no_mods"), Some("no_vips")} ==>
              r.roster == roster
  {
    if message == "Login authentication failed" then Shutdown
    else if msgId == Some("no_mods") then Updated(roster.(moderators := {}))
    else if msgId == Some("room_mods") then Updated(roster.(moderators := RoomMembers.ParseRoomMembers(message)))
    else if msgId == Some("no_vips") then Updated(roster.(vips := {}))
    else if msgId == Some("vips_success") then Updated(roster.(vips := RoomMembers.ParseRoomMembers(message)))
    else Updated(roster)
  }
}

=== FILE: poll.dfy ===
/** The `!poll` command and the polls it runs (module/poll.rs). The clock, the hook ids
    the chat framework hands out, id parsing, `common::percentage` and the word splitters
    are parameters; the iteration order of a hash map is an explicit sequence. */
module Poll {
  import opened Wrappers
  import Text
  import Principals

  /** `Poll::scope`: running the command needs the Poll scope. */
  function Scope(): (s: Option<Principals.Scope>)
    ensures s == Some(Principals.Poll)
  {
    Some(Principals.Poll)
  }

  // ---------------------------------------------------------------- options

  /** One option token split at its first `=`: the lower-cased key and, after the `=`,
      the description. */
  function ParseOption(token: string): (r: (string, Option<string>))
    ensures '=' !in token ==> r == (Text.ToLower(token), None)
    ensures '=' in token ==>
              exists i :: 0 <= i < |token| && token[i] == '=' && '=' !in token[..i]
                          && r == (Text.ToLower(token[..i]), Some(token[i + 1..]))
  {
    match Text.Find(token, '=')
    case None => (Text.ToLower(token), None)
    case Some(i) => (Text.ToLower(token[..i]), Some(token[i + 1..]))
  }

  /** An option written as `key=description` is read back as that key and description. */
  lemma ParseOptionRoundTrip(key: string, description: string)
    requires '=' !in key && Text.IsLower(key)
    ensures ParseOption(key + "=" + description) == (key, Some(description))
  {
    var token := key + "=" + description;
    assert forall j :: 0 <= j < |key| ==> token[j] == key[j];
    Text.FindFirst(token, '=', |key|);
    assert token[..|key|] == key && token[|key| + 1..] == description;
    Text.ToLowerIdempotent(key);
    assert Text.ToLower(key) == key;
  }

  function OptionKey(token: string): string {
    ParseOption(token).0
  }

  /** The description the last token with key `k` gives, if any token has that key. */
  function LastFor(tokens: seq<string>, k: string): (r: Option<Option<string>>)
    ensures r.Some? <==> exists i :: 0 <= i < |tokens| && OptionKey(tokens[i]) == k
  {
    if |tokens| == 0 then None
    else
      var n := |tokens| - 1;
      if OptionKey(tokens[n]) == k then Some(ParseOption(tokens[n]).1)
      else
        var r := LastFor(tokens[..n], k);
        assert forall i :: 0 <= i < n ==> tokens[..n][i] == tokens[i];
        r
  }

  /** The options of "run": each token's key mapped to its description, a later token
      overriding an earlier one with the same key. */
  function ParseOptions(tokens: seq<string>): (r: map<string, Option<string>>)
    ensures forall k :: k in r <==> LastFor(tokens, k).Some?
    ensures forall k :: k in r ==> r[k] == LastFor(tokens, k).value
  {
    if |tokens| == 0 then map[]
    else
      var n := |tokens| - 1;
      ParseOptions(tokens[..n])[OptionKey(tokens[n]) := ParseOption(tokens[n]).1]
  }

  // ---------------------------------------------------------------- voting

  /** Who has voted and the vote counts, keyed by the word voted with. */
  datatype Tally = Tally(voted: set<string>, votes: map<string, nat>)

  /** The count recorded under a key, zero when there is none. */
  function Count(votes: map<string, nat>, key: string): nat {
    if key in votes then votes[key] else 0
  }

  /** The index of the first word whose lower-cased form is an option key. */
  function FirstVote(words: seq<string>, options: map<string, Option<string>>): (r: Option<nat>)
    ensures r.None? <==> forall i :: 0 <= i < |words| ==> Text.ToLower(words[i]) !in options
    ensures r.Some? ==> r.value < |words| && Text.ToLower(words[r.value]) in options
    ensures r.Some? ==> forall i :: 0 <= i < r.value ==> Text.ToLower(words[i]) !in options
  {
    if |words| == 0 then None
    else if Text.ToLower(words[0]) in options then Some(0)
    else
      match FirstVote(words[1..], options)
      case None => None
      case Some(i) => Some(i + 1)
  }

  /** `ActivePoll::peek` as written: the vote is counted under the word as typed. */
  function PeekAsWritten(t: Tally, options: map<string, Option<string>>, sender: Principals.Principal,
                         words: seq<string>): (r: Tally)
    ensures sender.Injected? ==> r == t
    ensures sender.User? && sender.login in t.voted ==> r == t
    ensures sender.User? && sender.login !in t.voted ==>
              match FirstVote(words, options)
              case None => r == t
              case Some(i) =>
                && r.voted == t.voted + {sender.login}
                && Count(r.votes, words[i]) == Count(t.votes, words[i]) + 1
                && forall k :: k != words[i] ==> Count(r.votes, k) == Count(t.votes, k)
  {
    match sender
    case Injected => t
    case User(login) =>
      if login in t.voted then t
      else
        match FirstVote(words, options)
        case None => t
        case Some(i) => Tally(t.voted + {login}, t.votes[words[i] := Count(t.votes, words[i]) + 1])
  }

  /** `ActivePoll::peek` with the vote counted under the option key it matched. A real
      user votes at most once; the first word naming an option takes the vote. */
  function Peek(t: Tally, options: map<string, Option<string>>, sender: Principals.Principal,
                words: seq<string>): (r: Tally)
    ensures sender.Injected? ==> r == t
    ensures sender.User? && sender.login in t.voted ==> r == t
    ensures sender.User? && sender.login !in t.voted ==>
              match FirstVote(words, options)
              case None => r == t
              case Some(i) =>
                var key := Text.ToLower(words[i]);
                && r.voted == t.voted + {sender.login}
                && Count(r.votes, key) == Count(t.votes, key) + 1
                && forall k :: k != key ==> Count(r.votes, k) == Count(t.votes, k)
    ensures r.voted >= t.voted && |r.voted| <= |t.voted| + 1
  {
    match sender
    case Injected => t
    case User(login) =>
      if login in t.voted then t
      else
        match FirstVote(words, options)
        case None => t
        case Some(i) =>
          var key := Text.ToLower(words[i]);
          Tally(t.voted + {login}, t.votes[key := Count(t.votes, key) + 1])
  }

  /** Votes are only ever counted under option keys. */
  predicate Honest(t: Tally, options: map<string, Option<string>>) {
    forall k :: k in t.votes ==> k in options
  }

  /** Counting under the matched option key keeps a poll honest. */
  lemma PeekKeepsHonest(t: Tally, options: map<string, Option<string>>, sender: Principals.Principal,
                        words: seq<string>)
    requires Honest(t, options)
    ensures Honest(Peek(t, options, sender, words), options)
  {
  }

  /** As written, a vote typed in capitals is recorded under a key no option has, so it
      is lost when the poll closes, while the voter cannot vote again. */
  lemma CapitalVoteLostAsWritten(t: Tally)
    requires "alice" !in t.voted
    ensures var options := map["yes" := None];
            var r := PeekAsWritten(t, options, Principals.User("alice"), ["YES"]);
            && Count(r.votes, "yes") == Count(t.votes, "yes")
            && "alice" in r.voted
    ensures var options := map["yes" := None];
            var r := Peek(t, options, Principals.User("alice"), ["YES"]);
            Count(r.votes, "yes") == Count(t.votes, "yes") + 1
    ensures Honest(t, map["yes" := None]) ==>
              !Honest(PeekAsWritten(t, map["yes" := None], Principals.User("alice"), ["YES"]), map["yes" := None])
  {
    assert Text.ToLower("YES") == "yes";
    assert "YES" != "yes";
  }

  // ---------------------------------------------------------------- results

  /** One line of results: the option's label and its vote count. */
  datatype Standing = Standing(caption: string, count: nat)

  predicate SortedDesc(rs: seq<Standing>) {
    forall i, j :: 0 <= i < j < |rs| ==> rs[i].count >= rs[j].count
  }

  function Insert(x: Standing, rs: seq<Standing>): (r: seq<Standing>)
    requires SortedDesc(rs)
    ensures SortedDesc(r) && multiset(r) == multiset(rs) + multiset{x}
    ensures |r| > 0 && (r[0] == x || (|rs| > 0 && r[0] == rs[0]))
  {
    if |rs| == 0 || rs[0].count <= x.count then
      assert multiset([x] + rs) == multiset{x} + multiset(rs);
      [x] + rs
    else
      var rest := Insert(x, rs[1..]);
      var r := [rs[0]] + rest;
      assert rs == [rs[0]] + rs[1..];
      assert multiset(rs) == multiset{rs[0]} + multiset(rs[1..]);
      assert multiset(r) == multiset{rs[0]} + multiset(rest);
      SortedCons(rs[0], rest);
      r
  }

  /** A head no smaller than the first element of a sorted sequence keeps it sorted. */
  lemma SortedCons(h: Standing, t: seq<Standing>)
    requires SortedDesc(t)
    requires |t| == 0 || h.count >= t[0].count
    ensures SortedDesc([h] + t)
  {
    var r := [h] + t;
    forall i, j | 0 <= i < j < |r|
      ensures r[i].count >= r[j].count
    {
      if i == 0 {
        assert r[j] == t[j - 1];
      } else {
        assert r[i] == t[i - 1] && r[j] == t[j - 1];
      }
    }
  }

  /** A sort by non-increasing count, as `sort_by` on the reversed comparison. */
  function SortByCount(rs: seq<Standing>): (r: seq<Standing>)
    ensures SortedDesc(r) && multiset(r) == multiset(rs)
  {
    if |rs| == 0 then []
    else
      assert rs == [rs[0]] + rs[1..];
      Insert(rs[0], SortByCount(rs[1..]))
  }

  /** The results of the options in hash-map order: each labelled with its description
      or else its key, with the votes recorded under the key. */
  function Unsorted(options: map<string, Option<string>>, order: seq<string>, votes: map<string, nat>): (r: seq<Standing>)
    requires forall i :: 0 <= i < |order| ==> order[i] in options
    ensures |r| == |order|
    ensures forall i :: 0 <= i < |order| ==>
              r[i] == Standing(options[order[i]].GetOr(order[i]), Count(votes, order[i]))
  {
    if |order| == 0 then []
    else [Standing(options[order[0]].GetOr(order[0]), Count(votes, order[0]))] + Unsorted(options, order[1..], votes)
  }

  /** `ActivePoll::close`: one result per option, most votes first. */
  function Close(options: map<string, Option<string>>, order: seq<string>, votes: map<string, nat>): (r: seq<Standing>)
    requires forall k :: k in options <==> k in order
    requires forall i, j :: 0 <= i < j < |order| ==> order[i] != order[j]
    ensures |r| == |options|
    ensures SortedDesc(r)
    ensures multiset(r) == multiset(Unsorted(options, order, votes))
    ensures forall k :: k in options ==> Standing(options[k].GetOr(k), Count(votes, k)) in r
    ensures forall x :: x in r ==> exists k :: k in options && x == Standing(options[k].GetOr(k), Count(votes, k))
  {
    var u := Unsorted(options, order, votes);
    var r := SortByCount(u);
    OrderCoversOptions(options, order);
    StandingsCover(options, order, votes, r);
    StandingsOnly(options, order, votes, r);
    r
  }

  /** Every option's standing is among any permutation of the unsorted standings. */
  lemma StandingsCover(options: map<string, Option<string>>, order: seq<string>, votes: map<string, nat>, r: seq<Standing>)
    requires forall k :: k in options <==> k in order
    requires multiset(r) == multiset(Unsorted(options, order, votes))
    ensures forall k :: k in options ==> Standing(options[k].GetOr(k), Count(votes, k)) in r
  {
    var u := Unsorted(options, order, votes);
    forall k | k in options
      ensures Standing(options[k].GetOr(k), Count(votes, k)) in r
    {
      var i :| 0 <= i < |order| && order[i] == k;
      assert u[i] in multiset(u);
    }
  }

  /** Any permutation of the unsorted standings holds only options' standings. */
  lemma StandingsOnly(options: map<string, Option<string>>, order: seq<string>, votes: map<string, nat>, r: seq<Standing>)
    requires forall k :: k in options <==> k in order
    requires multiset(r) == multiset(Unsorted(options, order, votes))
    ensures forall x :: x in r ==> exists k :: k in options && x == Standing(options[k].GetOr(k), Count(votes, k))
  {
    var u := Unsorted(options, order, votes);
    forall x | x in r
      ensures exists k :: k in options && x == Standing(options[k].GetOr(k), Count(votes, k))
    {
      assert x in multiset(r);
      assert x in multiset(u);
      var i :| 0 <= i < |u| && u[i] == x;
      assert order[i] in options;
    }
  }

  /** A duplicate-free listing of the keys has as many entries as the map. */
  lemma OrderCoversOptions(options: map<string, Option<string>>, order: seq<string>)
    requires forall k :: k in options <==> k in order
    requires forall i, j :: 0 <= i < j < |order| ==> order[i] != order[j]
    ensures |order| == |options|
  {
    var keys := set i | 0 <= i < |order| :: order[i];
    assert keys == options.Keys;
    DistinctCard(order);
  }

  lemma {:induction false} DistinctCard(order: seq<string>)
    requires forall i, j :: 0 <= i < j < |order| ==> order[i] != order[j]
    ensures |set i | 0 <= i < |order| :: order[i]| == |order|
  {
    if |order| > 0 {
      var n := |order| - 1;
      DistinctCard(order[..n]);
      var init := set i | 0 <= i < n :: order[..n][i];
      var all := set i | 0 <= i < |order| :: order[i];
      assert all == init + {order[n]};
      assert order[n] !in init;
    }
  }

  /** How a count of votes is written. */
  function VoteWording(n: nat): (r: string)
    ensures n == 0 ==> r == "no votes"
    ensures n == 1 ==> r == "one vote"
    ensures n >= 2 ==> |r| > 6 && Text.DecimalValue(r[..|r| - 6]) == n && r[|r| - 6..] == " votes"
    ensures n >= 2 ==> '0' <= r[0] <= '9'
  {
    if n == 0 then "no votes"
    else if n == 1 then "one vote"
    else
      var r := Text.NatToString(n) + " votes";
      assert r[..|r| - 6] == Text.NatToString(n);
      r
  }

  /** Distinct counts are worded differently. */
  lemma VoteWordingInjective(n: nat, m: nat)
    requires n != m
    ensures VoteWording(n) != VoteWording(m)
  {
  }

  // ---------------------------------------------------------------- the command

  /** A running poll. `options` is keyed by the lower-cased option key; `optionOrder`
      lists those keys in the order the map yields them. */
  datatype ActivePoll = ActivePoll(question: string, createdAt: int, options: map<string, Option<string>>,
                                   optionOrder: seq<string>, tally: Tally)

  predicate DistinctKeys(order: seq<string>) {
    forall i, j :: 0 <= i < j < |order| ==> order[i] != order[j]
  }

  /** `order` is an iteration order of the map: each of its keys once. */
  ghost predicate ListsOptions(order: seq<string>, options: map<string, Option<string>>) {
    (forall k :: k in options <==> k in order) && DistinctKeys(order)
  }

  /** The option order lists each option key once. */
  ghost predicate ValidPoll(p: ActivePoll) {
    ListsOptions(p.optionOrder, p.options)
  }

  /** The option keys of the tokens, each once, in order of first appearance. The order a
      hash map yields is unspecified; this is one such order (see `KeysInOrderAdmissible`). */
  function KeysInOrder(tokens: seq<string>): (r: seq<string>)
    ensures DistinctKeys(r)
    ensures forall k :: k in r <==> HasKey(tokens, k)
  {
    if |tokens| == 0 then []
    else
      var n := |tokens| - 1;
      var init := KeysInOrder(tokens[..n]);
      KeysOfSnoc(tokens);
      var k := OptionKey(tokens[n]);
      if k in init then init
      else
        DistinctSnoc(init, k);
        init + [k]
  }

  /** Some token has key `k`. */
  predicate HasKey(tokens: seq<string>, k: string) {
    exists i :: 0 <= i < |tokens| && OptionKey(tokens[i]) == k
  }

  /** A key occurs in the tokens iff it occurs in all but the last or is the last's. */
  lemma KeysOfSnoc(tokens: seq<string>)
    requires |tokens| > 0
    ensures var n := |tokens| - 1;
            forall k :: HasKey(tokens, k) <==> HasKey(tokens[..n], k) || OptionKey(tokens[n]) == k
  {
    var n := |tokens| - 1;
    assert forall i :: 0 <= i < n ==> tokens[..n][i] == tokens[i];
  }

  /** A key not yet listed can be appended without repeating one. */
  lemma DistinctSnoc(s: seq<string>, k: string)
    requires DistinctKeys(s) && k !in s
    ensures DistinctKeys(s + [k])
  {
    var r := s + [k];
    forall i, j | 0 <= i < j < |r|
      ensures r[i] != r[j]
    {
      assert r[i] == s[i];
      if j < |s| {
        assert r[j] == s[j];
      }
    }
  }

  /** First-appearance order is an admissible iteration order of the parsed options, so
      an order meeting `Start`'s requirement always exists. */
  lemma KeysInOrderAdmissible(tokens: seq<string>)
    ensures ListsOptions(KeysInOrder(tokens), ParseOptions(tokens))
  {
  }

  /** Why "close" fails; each reason is reported to the user. */
  datatype CloseError = BadId(text: string) | NoRunningPolls | NoPollWithId(id: nat)

  /** The index of the newest poll in iteration order; among polls created at the same
      time the last one wins, as with `Iterator::max_by_key`. */
  function Newest(polls: map<nat, ActivePoll>, order: seq<nat>): (r: nat)
    requires |order| > 0 && forall i :: 0 <= i < |order| ==> order[i] in polls
    ensures r < |order|
    ensures forall i :: 0 <= i < |order| ==> polls[order[i]].createdAt <= polls[order[r]].createdAt
    ensures forall i :: r < i < |order| ==> polls[order[i]].createdAt < polls[order[r]].createdAt
  {
    if |order| == 1 then 0
    else
      var n := |order| - 1;
      var r := Newest(polls, order[..n]);
      assert forall i :: 0 <= i < n ==> order[..n][i] == order[i];
      if polls[order[n]].createdAt >= polls[order[r]].createdAt then n else r
  }

  /** The poll "close" picks: the one with the id given, which has to parse and to exist,
      or else the newest. */
  function SelectPoll(polls: map<nat, ActivePoll>, order: seq<nat>, idText: Option<string>,
                      parseId: string -> Option<nat>): (r: Result<nat, CloseError>)
    requires forall k :: k in polls <==> k in order
    ensures r.Ok? ==> r.value in polls
    ensures idText.Some? && parseId(idText.value).None? ==> r == Err(BadId(idText.value))
    ensures idText.Some? && parseId(idText.value).Some? ==>
              var id := parseId(idText.value).value;
              r == if id in polls then Ok(id) else Err(NoPollWithId(id))
    ensures idText.None? ==> (r == Err(NoRunningPolls) <==> |polls| == 0)
    ensures idText.None? && r.Ok? ==> forall k :: k in polls ==> polls[k].createdAt <= polls[r.value].createdAt
    ensures idText.None? && |polls| > 0 ==>
              && r.Ok?
              && exists i :: 0 <= i < |order| && order[i] == r.value
                   && forall j :: i < j < |order| ==> polls[order[j]].createdAt < polls[r.value].createdAt
  {
    match idText
    case Some(text) =>
      (match parseId(text)
       case None => Err(BadId(text))
       case Some(id) => if id in polls then Ok(id) else Err(NoPollWithId(id)))
    case None =>
      if |order| == 0 then
        assert forall k :: k !in polls;
        assert polls == map[];
        Err(NoRunningPolls)
      else
        var i := Newest(polls, order);
        assert forall k :: k in polls ==> exists j :: 0 <= j < |order| && order[j] == k;
        Ok(order[i])
  }

  /** The running polls and the order their map yields their ids in. */
  datatype Polls = Polls(active: map<nat, ActivePoll>, order: seq<nat>)

  /** `order` is an iteration order of the id set: each id once. */
  ghost predicate ListsIds(order: seq<nat>, ids: set<nat>) {
    (forall k :: k in ids <==> k in order) && (forall i, j :: 0 <= i < j < |order| ==> order[i] != order[j])
  }

  ghost predicate ValidPolls(ps: Polls) {
    && (forall k :: k in ps.active <==> k in ps.order)
    && (forall i, j :: 0 <= i < j < |ps.order| ==> ps.order[i] != ps.order[j])
    && (forall k :: k in ps.active ==> ValidPoll(ps.active[k]))
  }

  function RemoveId(order: seq<nat>, id: nat): (r: seq<nat>)
    ensures forall k :: k in r <==> k in order && k != id
    ensures (forall i, j :: 0 <= i < j < |order| ==> order[i] != order[j]) ==>
              forall i, j :: 0 <= i < j < |r| ==> r[i] != r[j]
  {
    if |order| == 0 then []
    else if order[0] == id then RemoveId(order[1..], id)
    else
      var rest := RemoveId(order[1..], id);
      assert (forall i, j :: 0 <= i < j < |order| ==> order[i] != order[j]) ==> order[0] !in order[1..];
      [order[0]] + rest
  }

  function TotalCount(rs: seq<Standing>): nat {
    if |rs| == 0 then 0 else rs[0].count + TotalCount(rs[1..])
  }

  /** One formatted result: its caption, the wording of its count and its share of all
      votes, as `common::percentage` writes it. */
  function FormatStanding(x: Standing, total: nat, percentage: (nat, nat) -> string): string {
    x.caption + " = " + VoteWording(x.count) + " (" + percentage(x.count, total) + ")"
  }

  function FormatAll(rs: seq<Standing>, total: nat, percentage: (nat, nat) -> string): (r: seq<string>)
    ensures |r| == |rs|
    ensures forall i :: 0 <= i < |rs| ==> r[i] == FormatStanding(rs[i], total, percentage)
  {
    if |rs| == 0 then [] else [FormatStanding(rs[0], total, percentage)] + FormatAll(rs[1..], total, percentage)
  }

  /** What the command does besides changing the polls. */
  datatype Reply = Silent | Say(text: string) | MissingQuestion | CloseFailed(error: CloseError)

  /** `Poll::handle`. When disabled it does nothing. "run" starts a poll under the hook id
      the framework hands out, "close" stops the chosen poll and announces its results,
      and anything else is answered with the usage. The iteration orders of the new
      poll's options and of the running polls after "run" are hash-map orders, given as
      parameters. */
  function Handle(enabled: bool, ps: Polls, args: seq<string>, hookId: nat, now: int,
                  optionOrder: seq<string>, pollOrder: seq<nat>,
                  idText: nat -> string, parseId: string -> Option<nat>,
                  percentage: (nat, nat) -> string): (r: (Polls, Reply))
    requires ValidPolls(ps)
    requires enabled && |args| >= 2 && args[0] == "run" ==>
               ListsOptions(optionOrder, ParseOptions(args[2..])) && ListsIds(pollOrder, ps.active.Keys + {hookId})
    ensures ValidPolls(r.0)
    ensures !enabled ==> r == (ps, Silent)
    ensures r.1.MissingQuestion? || r.1.CloseFailed? ==> r.0 == ps
    ensures enabled && args == ["run"] ==> r == (ps, MissingQuestion)
    ensures enabled && |args| >= 2 && args[0] == "run" ==>
              && r.1 == Say("Started poll `" + args[1] + "` (id: " + idText(hookId) + ")")
              && r.0.order == pollOrder
              && r.0.active.Keys == ps.active.Keys + {hookId}
              && r.0.active[hookId] == ActivePoll(args[1], now, ParseOptions(args[2..]), optionOrder, Tally({}, map[]))
              && forall k :: k in ps.active && k != hookId ==> r.0.active[k] == ps.active[k]
    ensures enabled && |args| >= 1 && args[0] == "close" ==>
              var id := SelectPoll(ps.active, ps.order, if |args| >= 2 then Some(args[1]) else None, parseId);
              && (id.Err? ==> r == (ps, CloseFailed(id.error)))
              && (id.Ok? ==> r.0.active == ps.active - {id.value}
                             && r.1 == Say(Announce(ps.active[id.value], percentage)))
    ensures enabled && (|args| == 0 || (args[0] != "run" && args[0] != "close")) ==>
              r == (ps, Say("Expected: run, close."))
  {
    if !enabled then (ps, Silent)
    else if |args| >= 1 && args[0] == "run" then
      if |args| < 2 then (ps, MissingQuestion)
      else (Start(ps, args[1], args[2..], hookId, now, optionOrder, pollOrder),
            Say("Started poll `" + args[1] + "` (id: " + idText(hookId) + ")"))
    else if |args| >= 1 && args[0] == "close" then
      match SelectPoll(ps.active, ps.order, if |args| >= 2 then Some(args[1]) else None, parseId)
      case Err(e) => (ps, CloseFailed(e))
      case Ok(id) => (Stop(ps, id), Say(Announce(ps.active[id], percentage)))
    else (ps, Say("Expected: run, close."))
  }

  /** "run": the new poll is registered under the hook id, with no votes yet. Its options
      are iterated in `optionOrder`, and the running polls afterwards in `pollOrder`:
      both are hash-map orders, which the source leaves unspecified. */
  function Start(ps: Polls, question: string, tokens: seq<string>, hookId: nat, now: int,
                 optionOrder: seq<string>, pollOrder: seq<nat>): (r: Polls)
    requires ValidPolls(ps)
    requires ListsOptions(optionOrder, ParseOptions(tokens))
    requires ListsIds(pollOrder, ps.active.Keys + {hookId})
    ensures ValidPolls(r)
    ensures r.order == pollOrder && r.active.Keys == ps.active.Keys + {hookId}
    ensures r.active[hookId] == ActivePoll(question, now, ParseOptions(tokens), optionOrder, Tally({}, map[]))
    ensures forall k :: k in ps.active && k != hookId ==> r.active[k] == ps.active[k]
  {
    var poll := ActivePoll(question, now, ParseOptions(tokens), optionOrder, Tally({}, map[]));
    Polls(ps.active[hookId := poll], pollOrder)
  }

  /** "close": the poll leaves the running polls. */
  function Stop(ps: Polls, id: nat): (r: Polls)
    requires ValidPolls(ps)
    ensures ValidPolls(r)
    ensures r.active == ps.active - {id}
  {
    Polls(ps.active - {id}, RemoveId(ps.order, id))
  }

  /** The announcement of a closed poll: its question and its formatted results. */
  function Announce(poll: ActivePoll, percentage: (nat, nat) -> string): (r: string)
    requires ValidPoll(poll)
    ensures var n := |poll.question| + 4;
            && |r| > n
            && r[..n] == poll.question + " -> "
            && r[|r| - 1] == '.'
            && var results := Close(poll.options, poll.optionOrder, poll.tally.votes);
               r[n..|r| - 1] == Text.Join(FormatAll(results, TotalCount(results), percentage), ", ")
  {
    var results := Close(poll.options, poll.optionOrder, poll.tally.votes);
    var total := TotalCount(results);
    var body := Text.Join(FormatAll(results, total, percentage), ", ");
    Framed(poll.question, body);
    poll.question + " -> " + body + "."
  }

  /** Where the question and the results sit in an announcement. */
  lemma Framed(question: string, body: string)
    ensures var r := question + " -> " + body + ".";
            && |r| == |question| + 4 + |body| + 1
            && r[..|question| + 4] == question + " -> "
            && r[|r| - 1] == '.'
            && r[|question| + 4..|r| - 1] == body
  {
    var r := question + " -> " + body + ".";
    assert r == (question + " -> ") + body + ".";
  }
}

=== FILE: principals.dfy ===
/** Who sent a chat message, and what that sender may do (irc.rs `Principal`, `User`,
    `RealUser`). The authorization back-end (`Auth::test_any`) and the subscriber lookup
    of the stream information are parameters. */
module Principals {
  import opened Wrappers
  import Text
  import Tags

  datatype Role = Streamer | Moderator | Subscriber | Vip | Everyone

  /** The position of a role in the list `roles` builds. */
  function Rank(r: Role): nat {
    match r
    case Streamer => 0
    case Moderator => 1
    case Subscriber => 2
    case Vip => 3
    case Everyone => 4
  }

  /** Each role of the list ranks below the one after it. */
  predicate RankOrdered(rs: seq<Role>) {
    forall i, j :: 0 <= i < |rs| && 0 <= j < |rs| && j == i + 1 ==> Rank(rs[i]) < Rank(rs[j])
  }

  /** The scopes the modelled core tests; every other scope is `OtherScope`. */
  datatype Scope = ChatBypassUrlWhitelist | Poll | OtherScope(name: string)

  /** A message comes from a chat user with a login, or was injected by the bot itself. */
  datatype Principal = User(login: string) | Injected

  /** The channel state a user is judged against. */
  datatype Channel = Channel(streamerLogin: string, moderators: set<string>, vips: set<string>)

  /** `User`: the sender of one message. */
  datatype ChatUser = ChatUser(tags: Tags.Tags, principal: Principal, channel: Channel)

  /** The Twitch account of the streamer: a numeric id and a login name. */
  datatype StreamerAccount = StreamerAccount(id: string, login: string)

  /** Tests whether a login subscribes to the channel. */
  type SubscriberLookup = string -> bool

  /** `Auth::test_any`: whether the scope is granted to the login or to any of the roles. */
  type ScopeTest = (Scope, string, seq<Role>) -> bool

  /** `User::name`: the login of a real user. */
  function Name(u: ChatUser): (r: Option<string>)
    ensures r.Some? <==> u.principal.User?
  {
    match u.principal
    case User(login) => Some(login)
    case Injected => None
  }

  /** `User::display_name`: the display-name tag, else the login. */
  function DisplayName(u: ChatUser): (r: Option<string>)
    ensures u.tags.displayName.Some? ==> r == u.tags.displayName
    ensures u.tags.displayName.None? ==> r == Name(u)
    ensures r.None? <==> u.tags.displayName.None? && u.principal.Injected?
  {
    if u.tags.displayName.Some? then u.tags.displayName else Name(u)
  }

  /** `User::is`: the sender is the real user whose login is `name` lower-cased. */
  function Is(u: ChatUser, name: string): (r: bool)
    ensures r ==> u.principal.User? && Text.IsLower(u.principal.login)
    ensures r <==> && u.principal.User?
                   && |u.principal.login| == |name|
                   && forall i :: 0 <= i < |name| ==> u.principal.login[i] == Text.LowerChar(name[i])
  {
    Text.ToLowerIdempotent(name);
    u.principal.User? && u.principal.login == Text.ToLower(name)
  }

  /** The comparison is case-insensitive in the name asked about. */
  lemma IsIgnoresCase(u: ChatUser, name: string)
    ensures Is(u, name) == Is(u, Text.ToLower(name))
  {
    Text.ToLowerIdempotent(name);
  }

  /** `User::is_streamer`: an injected message counts as the streamer's. */
  predicate IsStreamer(u: ChatUser) {
    match u.principal
    case User(login) => login == u.channel.streamerLogin
    case Injected => true
  }

  /** `User::is_moderator`: an injected message counts as a moderator's. */
  predicate IsModerator(u: ChatUser) {
    match u.principal
    case User(login) => login in u.channel.moderators
    case Injected => true
  }

  /** The streamer and the moderators are recognised by the sender's login; a message
      without one, an injected message, counts as both. */
  lemma StreamerAndModeratorByName(u: ChatUser)
    ensures IsStreamer(u) <==> Name(u).None? || Name(u).value == u.channel.streamerLogin
    ensures IsModerator(u) <==> Name(u).None? || Name(u).value in u.channel.moderators
  {
  }

  /** `RealUser::roles`: the roles of a real user, in rank order, `Everyone` last. */
  function RealRoles(login: string, channel: Channel, isSubscriber: SubscriberLookup): (r: seq<Role>)
    ensures Streamer in r <==> login == channel.streamerLogin
    ensures Moderator in r <==> login in channel.moderators
    ensures Subscriber in r <==> login == channel.streamerLogin || isSubscriber(login)
    ensures Vip in r <==> login in channel.vips
    ensures |r| > 0 && r[|r| - 1] == Everyone
    ensures RankOrdered(r)
  {
    var streamer := login == channel.streamerLogin;
    var moderator, subscriber, vip := login in channel.moderators, streamer || isSubscriber(login), login in channel.vips;
    RoleListRanked(streamer, moderator, subscriber, vip);
    RoleList(streamer, moderator, subscriber, vip)
  }

  /** The roles whose conditions hold, in rank order, followed by `Everyone`. */
  function RoleList(streamer: bool, moderator: bool, subscriber: bool, vip: bool): (r: seq<Role>)
    ensures Streamer in r <==> streamer
    ensures Moderator in r <==> moderator
    ensures Subscriber in r <==> subscriber
    ensures Vip in r <==> vip
    ensures |r| > 0 && r[|r| - 1] == Everyone
  {
    (if streamer then [Streamer] else [])
    + ((if moderator then [Moderator] else [])
       + ((if subscriber then [Subscriber] else [])
          + ((if vip then [Vip] else []) + [Everyone])))
  }

  /** Each role of the list ranks below the next. */
  lemma RoleListRanked(streamer: bool, moderator: bool, subscriber: bool, vip: bool)
    ensures RankOrdered(RoleList(streamer, moderator, subscriber, vip))
  {
    var withVip := (if vip then [Vip] else []) + [Everyone];
    PrependRanked(vip, Vip, [Everyone]);
    var withSub := (if subscriber then [Subscriber] else []) + withVip;
    PrependRanked(subscriber, Subscriber, withVip);
    var withMod := (if moderator then [Moderator] else []) + withSub;
    PrependRanked(moderator, Moderator, withSub);
    PrependRanked(streamer, Streamer, withMod);
  }

  /** Putting a role of lower rank in front of a ranked list keeps it ranked. */
  lemma PrependRanked(b: bool, x: Role, s: seq<Role>)
    requires |s| > 0 && Rank(x) < Rank(s[0])
    requires RankOrdered(s)
    ensures var r := (if b then [x] else []) + s;
            |r| > 0 && r[|r| - 1] == s[|s| - 1] && Rank(x) <= Rank(r[0]) && RankOrdered(r)
  {
    var r := (if b then [x] else []) + s;
    if b {
      assert forall i :: 0 < i < |r| ==> r[i] == s[i - 1];
      assert Rank(r[0]) < Rank(r[1]);
    } else {
      assert r == s;
    }
  }

  /** `User::roles`: an injected message holds every role but `Everyone`. */
  function Roles(u: ChatUser, isSubscriber: SubscriberLookup): (r: seq<Role>)
    ensures u.principal.Injected? ==> r == [Streamer, Moderator, Subscriber, Vip]
    ensures u.principal.User? ==> r == RealRoles(u.principal.login, u.channel, isSubscriber)
    ensures RankOrdered(r)
  {
    match u.principal
    case User(login) => RealRoles(login, u.channel, isSubscriber)
    case Injected => [Streamer, Moderator, Subscriber, Vip]
  }

  /** `User::has_scope`: an injected message never holds a scope; a real user holds one
      when the authorization back-end grants it to the login or one of its roles. */
  function HasScope(u: ChatUser, scope: Scope, isSubscriber: SubscriberLookup, testAny: ScopeTest): (r: bool)
    ensures u.principal.Injected? ==> !r
    ensures u.principal.User? ==> (r <==> testAny(scope, u.principal.login, Roles(u, isSubscriber)))
  {
    match u.principal
    case User(login) => testAny(scope, login, Roles(u, isSubscriber))
    case Injected => false
  }

  /** The streamer's own messages carry the streamer and subscriber roles, whatever the
      subscriber lookup says. */
  lemma StreamerRoles(u: ChatUser, isSubscriber: SubscriberLookup)
    requires u.principal.User? && u.principal.login == u.channel.streamerLogin
    ensures Streamer in Roles(u, isSubscriber) && Subscriber in Roles(u, isSubscriber)
    ensures IsStreamer(u)
  {
  }

  /** `Client::raw`: the sender of a message the bot injects into its own channel; the
      channel's streamer is identified by login. */
  function InjectedUser(streamer: StreamerAccount, moderators: set<string>, vips: set<string>): (u: ChatUser)
    ensures u.principal.Injected? && u.tags == Tags.NoTags
    ensures u.channel.streamerLogin == streamer.login
  {
    ChatUser(Tags.NoTags, Injected, Channel(streamer.login, moderators, vips))
  }

  /** The sender of a PRIVMSG as `Handler::handle` builds it: the channel's streamer is
      recorded by the account's numeric id, not its login. */
  function PrivmsgUserAsWritten(tags: Tags.Tags, nick: string, streamer: StreamerAccount,
                                moderators: set<string>, vips: set<string>): (u: ChatUser)
    ensures u.principal == User(nick) && u.tags == tags
    ensures u.channel.streamerLogin == streamer.id
  {
    ChatUser(tags, User(nick), Channel(streamer.id, moderators, vips))
  }

  /** The sender of a PRIVMSG with the streamer recorded by login, as `is_streamer`
      compares it and as `Client::raw` records it. */
  function PrivmsgUser(tags: Tags.Tags, nick: string, streamer: StreamerAccount,
                       moderators: set<string>, vips: set<string>): (u: ChatUser)
    ensures u.principal == User(nick) && u.tags == tags
    ensures u.channel.streamerLogin == streamer.login
  {
    ChatUser(tags, User(nick), Channel(streamer.login, moderators, vips))
  }

  /** As written, the streamer chatting under their own login is not recognised as the
      streamer whenever the login differs from the numeric id, which it always does for
      a login with a letter in it. */
  lemma StreamerNotRecognisedAsWritten(tags: Tags.Tags, streamer: StreamerAccount,
                                       moderators: set<string>, vips: set<string>,
                                       isSubscriber: SubscriberLookup)
    requires streamer.login != streamer.id
    ensures !IsStreamer(PrivmsgUserAsWritten(tags, streamer.login, streamer, moderators, vips))
    ensures Streamer !in Roles(PrivmsgUserAsWritten(tags, streamer.login, streamer, moderators, vips), isSubscriber)
  {
  }

  /** With the login recorded, the streamer's own messages are the streamer's, and a
      real sender is the streamer exactly when their login is the streamer's. */
  lemma StreamerRecognised(tags: Tags.Tags, nick: string, streamer: StreamerAccount,
                           moderators: set<string>, vips: set<string>,
                           isSubscriber: SubscriberLookup)
    ensures IsStreamer(PrivmsgUser(tags, nick, streamer, moderators, vips)) <==> nick == streamer.login
    ensures Streamer in Roles(PrivmsgUser(tags, nick, streamer, moderators, vips), isSubscriber)
            <==> nick == streamer.login
  {
  }
}

=== FILE: promotions.dfy ===
/** The promotion store (db/promotions.rs): recurring announcements keyed by channel and
    name, kept in step with the `promotions` table. Templates are held as their source
    text; the clock is a parameter. */
module Promotions {
  import opened Wrappers
  import opened Stores
  import Text

  /** A signed 32-bit integer, the type of the frequency column. */
  type i32 = x: int | -0x8000_0000 <= x < 0x8000_0000

  /** `as i32` on an unsigned count: the low 32 bits, read as two's complement. */
  function AsI32(n: nat): (r: i32)
    ensures 0 <= n < 0x8000_0000 ==> r == n
    ensures (r - n) % 0x1_0000_0000 == 0
  {
    var low := n % 0x1_0000_0000;
    if low < 0x8000_0000 then low else low - 0x1_0000_0000
  }

  /** `as u64` on an `i32`: sign extension, so a negative value becomes huge. */
  function AsU64(x: i32): (r: nat)
    ensures x >= 0 ==> r == x
    ensures x < 0 ==> r == x + 0x1_0000_0000_0000_0000 && r >= 0xFFFF_FFFF_8000_0000
  {
    if x < 0 then x + 0x1_0000_0000_0000_0000 else x
  }

  /** A row of the `promotions` table; the frequency is stored in seconds. */
  datatype Row = Row(channel: string, name: string, frequency: i32, promotedAt: Option<int>,
                     text: string, group: Option<string>, disabled: bool)

  /** An in-memory promotion; the frequency is a number of seconds. */
  datatype Promotion = Promotion(key: Key, frequency: nat, promotedAt: Option<int>,
                                 template: string, group: Option<string>, disabled: bool)

  type Store = map<Key, Promotion>
  type Table = map<Key, Row>

  predicate WellKeyed(store: Store) {
    forall k :: k in store ==> store[k].key == k
  }

  ghost predicate Unchanged(before: Store, after: Store, key: Key) {
    forall k :: k != key ==> (k in before <==> k in after) && (k in before ==> before[k] == after[k])
  }

  /** `Database::edit` as written: a new row is inserted but not reported; an existing row
      has text and frequency replaced and is reported as it was, unless disabled. */
  function DbEditAsWritten(table: Table, key: Key, frequency: nat, text: string): (r: (Table, Option<Row>))
    ensures key in r.0 && r.0[key].text == text && r.0[key].frequency == AsI32(frequency)
    ensures key !in table ==> r.1.None?
    ensures key in table ==> r.1 == (if table[key].disabled then None else Some(table[key]))
  {
    if key !in table then
      (table[key := Row(key.channel, key.name, AsI32(frequency), None, text, None, false)], None)
    else
      var row := table[key];
      (table[key := row.(text := text, frequency := AsI32(frequency))], if row.disabled then None else Some(row))
  }

  /** `Database::edit` reporting the new row, as the alias and theme tables do. */
  function DbEdit(table: Table, key: Key, frequency: nat, text: string): (r: (Table, Option<Row>))
    ensures key in r.0 && r.0[key].text == text && r.0[key].frequency == AsI32(frequency)
    ensures key !in table ==> r.1 == Some(r.0[key]) && !r.0[key].disabled
    ensures key in table ==> r.1 == (if table[key].disabled then None else Some(table[key]))
  {
    if key !in table then
      var row := Row(key.channel, key.name, AsI32(frequency), None, text, None, false);
      (table[key := row], Some(row))
    else
      var row := table[key];
      (table[key := row.(text := text, frequency := AsI32(frequency))], if row.disabled then None else Some(row))
  }

  /** `Promotions::edit`: a database failure changes nothing; a reported row is stored with
      the new frequency and template and the row's last promotion time, group and
      disabled flag; no report removes the promotion. */
  function Edit(store: Store, channel: string, name: string, frequency: nat, template: string,
                db: Db<Option<Row>>): (r: Result<Store, ()>)
    requires WellKeyed(store)
    ensures db.DbFailed? <==> r.Err?
    ensures r.Ok? ==> WellKeyed(r.value) && Unchanged(store, r.value, NewKey(channel, name))
    ensures r.Ok? ==> (NewKey(channel, name) in r.value <==> db.value.Some?)
    ensures r.Ok? && db.value.Some? ==>
              var p := r.value[NewKey(channel, name)];
              var row := db.value.value;
              && p.frequency == frequency && p.template == template
              && p.promotedAt == row.promotedAt && p.group == row.group && p.disabled == row.disabled
  {
    var key := NewKey(channel, name);
    match db
    case DbFailed => Err(())
    case DbOk(Some(row)) => Ok(store[key := Promotion(key, frequency, row.promotedAt, template, row.group, row.disabled)])
    case DbOk(None) => Ok(store - {key})
  }

  /** As written, a newly created promotion is missing from memory until the store is
      loaded again, and an edit of an existing one removes it too when it is disabled. */
  lemma NewPromotionDroppedAsWritten(store: Store, table: Table, channel: string, name: string,
                                     frequency: nat, template: string)
    requires WellKeyed(store) && NewKey(channel, name) !in table
    ensures var r := Edit(store, channel, name, frequency, template,
                          DbOk(DbEditAsWritten(table, NewKey(channel, name), frequency, template).1));
            r.Ok? && NewKey(channel, name) !in r.value
  {
  }

  /** With the new row reported, a promotion is in memory after an edit exactly when it
      is new or enabled, with the frequency and template just given. */
  lemma EditAgainstTable(store: Store, table: Table, channel: string, name: string,
                         frequency: nat, template: string)
    requires WellKeyed(store)
    ensures var key := NewKey(channel, name);
            var r := Edit(store, channel, name, frequency, template, DbOk(DbEdit(table, key, frequency, template).1));
            && r.Ok?
            && (key in r.value <==> key !in table || !table[key].disabled)
            && (key in r.value ==> r.value[key].frequency == frequency && r.value[key].template == template
                                   && !r.value[key].disabled)
  {
  }

  /** Why a bump fails. */
  datatype BumpError = BumpMissing | BumpDatabase

  /** `Promotions::bump_promoted_at` as written: the promotion is taken out of the map
      before the database is updated, so a database failure leaves it out. */
  function BumpAsWritten(store: Store, key: Key, now: int, db: Db<bool>): (r: (Store, Option<BumpError>))
    requires WellKeyed(store)
    ensures key !in store ==> r == (store, Some(BumpMissing))
    ensures key in store && db.DbFailed? ==> r == (store - {key}, Some(BumpDatabase))
    ensures key in store && db.DbOk? ==> r == (store[key := store[key].(promotedAt := Some(now))], None)
  {
    if key !in store then (store, Some(BumpMissing))
    else
      var p := store[key];
      var rest := store - {key};
      if db.DbFailed? then (rest, Some(BumpDatabase))
      else
        assert rest[key := p.(promotedAt := Some(now))] == store[key := p.(promotedAt := Some(now))];
        (rest[key := p.(promotedAt := Some(now))], None)
  }

  /** The bump with the promotion kept when the database fails: on success only the last
      promotion time of that one promotion changes; on failure nothing changes. */
  function Bump(store: Store, key: Key, now: int, db: Db<bool>): (r: (Store, Option<BumpError>))
    requires WellKeyed(store)
    ensures WellKeyed(r.0)
    ensures r.1 == Some(BumpMissing) <==> key !in store
    ensures r.1.Some? ==> r.0 == store
    ensures r.1.None? <==> key in store && db.DbOk?
    ensures r.1.None? ==>
              && key in r.0 && r.0[key].promotedAt == Some(now)
              && r.0[key] == store[key].(promotedAt := Some(now))
              && Unchanged(store, r.0, key)
  {
    if key !in store then (store, Some(BumpMissing))
    else if db.DbFailed? then (store, Some(BumpDatabase))
    else (store[key := store[key].(promotedAt := Some(now))], None)
  }

  /** The two agree except when the database fails, where the written version forgets
      the promotion. */
  lemma BumpLosesPromotionAsWritten(store: Store, key: Key, now: int)
    requires WellKeyed(store) && key in store
    ensures key !in BumpAsWritten(store, key, now, DbFailed).0
    ensures key in Bump(store, key, now, DbFailed).0
    ensures forall ok :: BumpAsWritten(store, key, now, DbOk(ok)) == Bump(store, key, now, DbOk(ok))
  {
  }

  /** `Promotion::from_db`: the key the row's columns name, its frequency read as an
      unsigned count of seconds, and the remaining columns as they are. */
  function FromDb(row: Row): (p: Promotion)
    ensures p.key == NewKey(row.channel, row.name)
    ensures row.frequency >= 0 ==> p.frequency == row.frequency
    ensures p.promotedAt == row.promotedAt && p.template == row.text
    ensures p.group == row.group && p.disabled == row.disabled
  {
    Promotion(NewKey(row.channel, row.name), AsU64(row.frequency), row.promotedAt, row.text, row.group, row.disabled)
  }

  /** A frequency that fits the column survives storage; a larger one comes back
      different. */
  lemma FrequencyRoundTrip(table: Table, key: Key, frequency: nat, text: string)
    ensures var row := DbEdit(table, key, frequency, text).0[key];
            frequency < 0x8000_0000 ==> FromDb(row).frequency == frequency
    ensures var row := DbEdit(table, key, 0x8000_0000, text).0[key];
            FromDb(row).frequency == 0xFFFF_FFFF_8000_0000
  {
  }

  /** `Display for Promotion`; how a frequency is written is a parameter. */
  function Display(p: Promotion, durationText: nat -> string): (r: string)
    ensures |r| >= |"frequency = "| && r[..|"frequency = "|] == "frequency = "
    ensures Text.EndsWith(r, ", disabled = " + BoolText(p.disabled))
    ensures p.group.None? ==> Text.EndsWith(r, ", group = *none*" + ", disabled = " + BoolText(p.disabled))
  {
    var head := "frequency = " + durationText(p.frequency) + ", template = \"" + p.template + "\"";
    var tail := GroupTail(p.group, p.disabled);
    Text.EndsWithConcat(head, tail, ", disabled = " + BoolText(p.disabled));
    head + tail
  }
}

=== FILE: room_members.dfy ===
/** Parsing of the free-form moderator and VIP list notices
    ("The moderators of this channel are: foo, bar"). */
module RoomMembers {
  import opened Wrappers
  import opened Text

  /** The member names of a notice: nothing when it has no colon; otherwise the text
      after the first colon, without trailing periods, split at commas, each piece
      trimmed, empty pieces dropped. */
  function ParseRoomMembers(message: string): (r: set<string>)
    ensures ':' !in message ==> r == {}
    ensures forall m :: m in r ==> |m| > 0 && IsTrimmed(m) && ',' !in m
  {
    match Find(message, ':')
    case None => {}
    case Some(i) => MembersOf(message[i + 1..])
  }

  /** The names listed in the text that follows the colon. */
  function MembersOf(listed: string): (r: set<string>)
    ensures forall m :: m in r ==> |m| > 0 && IsTrimmed(m) && ',' !in m
  {
    NamesOf(Split(TrimEndMatches(listed, '.'), ','))
  }

  /** The trimmed pieces that are not empty. */
  function NamesOf(pieces: seq<string>): (r: set<string>)
    ensures forall m :: m in r ==> |m| > 0 && IsTrimmed(m)
    ensures (forall i :: 0 <= i < |pieces| ==> ',' !in pieces[i]) ==> forall m :: m in r ==> ',' !in m
  {
    if |pieces| == 0 then {}
    else
      var t := Trim(pieces[0]);
      TrimInfix(pieces[0]);
      (if t != "" then {t} else {}) + NamesOf(pieces[1..])
  }

  /** The text after the colon as the notice writes it: a space before every name and
      a comma between names. */
  function Listing(names: seq<string>): string {
    Join(Spaced(names), ",")
  }

  function Spaced(names: seq<string>): (r: seq<string>)
    ensures |r| == |names|
    ensures forall i :: 0 <= i < |names| ==> r[i] == " " + names[i]
  {
    seq(|names|, i requires 0 <= i < |names| => " " + names[i])
  }

  /** A well-formed name: non-empty, trimmed, with no comma and no trailing period. */
  predicate IsMemberName(n: string) {
    |n| > 0 && IsTrimmed(n) && ',' !in n && n[|n| - 1] != '.'
  }

  /** Parsing a notice that lists `names` after a colon-free prefix yields exactly the
      set of those names, with or without a closing period. In particular the result
      does not depend on the order of the names, and an empty listing yields no one. */
  lemma ParseListing(prefix: string, names: seq<string>, period: bool)
    requires ':' !in prefix
    requires forall i :: 0 <= i < |names| ==> IsMemberName(names[i])
    ensures ParseRoomMembers(prefix + ":" + (Listing(names) + if period then "." else ""))
            == set n | n in names
  {
    var tail := if period then "." else "";
    var body := Listing(names) + tail;
    AfterColon(prefix, body);
    ListingPeriod(names, period);
    assert MembersOf(body) == MembersOf(Listing(names));
    ListingMembers(names);
  }

  /** Only the text after the first colon matters. */
  lemma AfterColon(prefix: string, body: string)
    requires ':' !in prefix
    ensures ParseRoomMembers(prefix + ":" + body) == MembersOf(body)
  {
    var message := prefix + ":" + body;
    assert message[..|prefix|] == prefix && message[|prefix|] == ':';
    assert Find(message, ':') == Some(|prefix|);
    assert message[|prefix| + 1..] == body;
  }

  /** A closing period after a listing is stripped, and the listing itself is kept. */
  lemma ListingPeriod(names: seq<string>, period: bool)
    requires forall i :: 0 <= i < |names| ==> IsMemberName(names[i])
    ensures MembersOf(Listing(names) + (if period then "." else "")) == MembersOf(Listing(names))
  {
    var l := Listing(names);
    ListingEnd(names);
    if period {
      TrimEndMatchesSnoc(l, '.');
    } else {
      assert l + "" == l;
    }
  }

  /** The names of a listing are exactly the listed names. */
  lemma ListingMembers(names: seq<string>)
    requires forall i :: 0 <= i < |names| ==> IsMemberName(names[i])
    ensures MembersOf(Listing(names)) == set n | n in names
  {
    ListingEnd(names);
    assert TrimEndMatches(Listing(names), '.') == Listing(names);
    if |names| == 0 {
      assert Listing(names) == "";
      assert Split("", ',') == [""];
    } else {
      ListingSplit(names);
      PiecesTrimmed(names);
    }
  }

  /** Splitting a non-empty listing at commas gives back its spaced pieces. */
  lemma ListingSplit(names: seq<string>)
    requires |names| > 0
    requires forall i :: 0 <= i < |names| ==> IsMemberName(names[i])
    ensures Split(Listing(names), ',') == Spaced(names)
  {
    var pieces := Spaced(names);
    forall i | 0 <= i < |pieces| ensures ',' !in pieces[i] {
      assert pieces[i] == " " + names[i];
    }
    SplitJoin(pieces, ',');
  }

  /** Trimming the spaced pieces recovers the names. */
  lemma {:induction false} PiecesTrimmed(names: seq<string>)
    requires forall i :: 0 <= i < |names| ==> IsMemberName(names[i])
    ensures NamesOf(Spaced(names)) == set n | n in names
  {
    if |names| > 0 {
      assert forall i :: 0 <= i < |names[1..]| ==> IsMemberName(names[1..][i]) by {
        forall i | 0 <= i < |names[1..]| ensures IsMemberName(names[1..][i]) {
          assert names[1..][i] == names[i + 1];
        }
      }
      PiecesTrimmed(names[1..]);
      PiecesStep(names);
      SetOfCons(names);
    }
  }

  /** The first spaced piece contributes the first name. */
  lemma PiecesStep(names: seq<string>)
    requires |names| > 0 && IsMemberName(names[0])
    ensures NamesOf(Spaced(names)) == {names[0]} + NamesOf(Spaced(names[1..]))
  {
    var pieces := Spaced(names);
    assert pieces[0] == " " + names[0];
    assert pieces[1..] == Spaced(names[1..]);
    TrimLeading(" ", names[0]);
  }

  lemma SetOfCons(names: seq<string>)
    requires |names| > 0
    ensures (set n | n in names) == {names[0]} + set n | n in names[1..]
  {
    assert names == [names[0]] + names[1..];
  }

  /** A listing ends in the last name, so it never ends in a period. */
  lemma ListingEnd(names: seq<string>)
    requires forall i :: 0 <= i < |names| ==> IsMemberName(names[i])
    ensures |Listing(names)| == 0 || Listing(names)[|Listing(names)| - 1] != '.'
  {
    if |names| > 0 {
      JoinEndsWithLast(Spaced(names), ",");
    }
  }

  lemma {:induction false} JoinEndsWithLast(parts: seq<string>, sep: string)
    requires |parts| >= 1 && |parts[|parts| - 1]| > 0
    ensures |Join(parts, sep)| > 0
    ensures Join(parts, sep)[|Join(parts, sep)| - 1] == parts[|parts| - 1][|parts[|parts| - 1]| - 1]
  {
    if |parts| > 1 {
      JoinEndsWithLast(parts[1..], sep);
    }
  }

  /** The source's unit test ("The moderators of this channel are: foo, bar"), for any
      colon-free opening text. */
  lemma ExampleTwoNames(prefix: string)
    requires ':' !in prefix
    ensures ParseRoomMembers(prefix + ":" + " foo, bar") == {"foo", "bar"}
  {
    ListingOfTwo("foo", "bar");
    assert " " + "foo" + ", " + "bar" == " foo, bar";
    ParseListing(prefix, ["foo", "bar"], false);
  }

  /** Order does not matter: the same names the other way round. */
  lemma ExampleSwapped(prefix: string)
    requires ':' !in prefix
    ensures ParseRoomMembers(prefix + ":" + " bar, foo") == {"foo", "bar"}
  {
    ListingOfTwo("bar", "foo");
    assert " " + "bar" + ", " + "foo" == " bar, foo";
    ParseListing(prefix, ["bar", "foo"], false);
  }

  lemma ListingOfTwo(a: string, b: string)
    ensures Listing([a, b]) + "" == " " + a + ", " + b
    ensures (set n | n in [a, b]) == {a, b}
  {
    var sp := Spaced([a, b]);
    assert sp == [" " + a, " " + b];
    assert sp[1..] == [" " + b];
    assert Join(sp[1..], ",") == " " + b;
  }

  /** The source's unit test: no names after the colon ("... are:"). */
  lemma ExampleNoNames(prefix: string)
    requires ':' !in prefix
    ensures ParseRoomMembers(prefix + ":") == {}
  {
    ParseListing(prefix, [], false);
    assert Listing([]) + "" == "";
    assert prefix + ":" == prefix + ":" + "";
  }
}

=== FILE: stores.dfy ===
/** What the in-memory stores of db/aliases.rs, db/promotions.rs and db/themes.rs share:
    the key they are indexed by, a channel and a lower-cased name, the rename errors,
    and the way their `Display` implementations end. */
module Stores {
  import opened Wrappers
  import Text

  datatype Key = Key(channel: string, name: string)

  /** `Key::new`: the channel as given and the name lower-cased. */
  function NewKey(channel: string, name: string): (k: Key)
    ensures k.channel == channel && |k.name| == |name| && Text.IsLower(k.name)
    ensures forall i :: 0 <= i < |name| ==> k.name[i] == Text.LowerChar(name[i])
  {
    Text.ToLowerIdempotent(name);
    Key(channel, Text.ToLower(name))
  }

  /** Names that differ only in case denote the same key, and a key's own name denotes
      it again. */
  lemma NewKeyIgnoresCase(channel: string, name: string)
    ensures NewKey(channel, name) == NewKey(channel, Text.ToLower(name))
    ensures NewKey(channel, NewKey(channel, name).name) == NewKey(channel, name)
  {
    Text.ToLowerIdempotent(name);
  }

  /** Why a rename fails: the new name is taken, or the old one does not exist. */
  datatype RenameError = Conflict | Missing

  function BoolText(b: bool): string {
    if b then "true" else "false"
  }

  /** The end of a displayed entry: its group, `*none*` when it has none, and its
      disabled flag. */
  function GroupTail(group: Option<string>, disabled: bool): (r: string)
    ensures Text.EndsWith(r, ", disabled = " + BoolText(disabled))
    ensures group.None? ==> r == ", group = *none*" + ", disabled = " + BoolText(disabled)
  {
    var g := if group.Some? then group.value else "*none*";
    Text.EndsWithConcat(", group = " + g, ", disabled = " + BoolText(disabled), "");
    ", group = " + g + (", disabled = " + BoolText(disabled))
  }
}

=== FILE: tags.dfy ===
/** IRCv3 message tags as the chat connection reads them (irc.rs `Tags::from_tags`,
    `ClearMsgTags::from_tags`). */
module Tags {
  import opened Wrappers

  /** One tag of a message: a name and, unless the tag was sent without `=`, a value. */
  datatype Tag = Tag(name: string, value: Option<string>)

  /** The tags the bot keeps from a message. */
  datatype Tags = Tags(
    id: Option<string>,
    msgId: Option<string>,
    displayName: Option<string>,
    userId: Option<string>,
    color: Option<string>,
    emotes: Option<string>)

  /** The tags of a message that carries none. */
  const NoTags := Tags(None, None, None, None, None, None)

  /** The value of the last tag called `name` that has a value. */
  function LastValued(tags: seq<Tag>, name: string): (r: Option<string>)
    ensures r.Some? ==> Tag(name, r) in tags
    ensures r.None? <==> forall i :: 0 <= i < |tags| && tags[i].name == name ==> tags[i].value.None?
  {
    if |tags| == 0 then None
    else
      var last := tags[|tags| - 1];
      if last.name == name && last.value.Some? then
        last.value
      else
        LastValued(tags[..|tags| - 1], name)
  }

  /** A later valued tag overrides every earlier one; any other tag leaves the lookup
      as it was. */
  lemma LastValuedSnoc(tags: seq<Tag>, tag: Tag, name: string)
    ensures LastValued(tags + [tag], name)
         == if tag.name == name && tag.value.Some? then tag.value else LastValued(tags, name)
  {
    assert (tags + [tag])[..|tags|] == tags;
  }

  /** One step of the tag loop: a valued tag with a known name sets that field; an
      unknown name or a tag without value changes nothing. */
  function Absorb(t: Tags, tag: Tag): (r: Tags)
  {
    match tag.value
    case None => t
    case Some(v) =>
      if tag.name == "id" then t.(id := Some(v))
      else if tag.name == "msg-id" then t.(msgId := Some(v))
      else if tag.name == "display-name" then t.(displayName := Some(v))
      else if tag.name == "user-id" then t.(userId := Some(v))
      else if tag.name == "color" then t.(color := Some(v))
      else if tag.name == "emotes" then t.(emotes := Some(v))
      else t
  }

  /** `Tags::from_tags`: every field holds the value of the last valued tag with its
      name; a message without tags has none. */
  method FromTags(tags: Option<seq<Tag>>) returns (t: Tags)
    ensures tags.None? ==> t == NoTags
    ensures tags.Some? ==>
              && t.id == LastValued(tags.value, "id")
              && t.msgId == LastValued(tags.value, "msg-id")
              && t.displayName == LastValued(tags.value, "display-name")
              && t.userId == LastValued(tags.value, "user-id")
              && t.color == LastValued(tags.value, "color")
              && t.emotes == LastValued(tags.value, "emotes")
  {
    t := NoTags;
    if tags.None? {
      return;
    }
    var ts := tags.value;
    var i := 0;
    while i < |ts|
      invariant 0 <= i <= |ts|
      invariant t.id == LastValued(ts[..i], "id")
      invariant t.msgId == LastValued(ts[..i], "msg-id")
      invariant t.displayName == LastValued(ts[..i], "display-name")
      invariant t.userId == LastValued(ts[..i], "user-id")
      invariant t.color == LastValued(ts[..i], "color")
      invariant t.emotes == LastValued(ts[..i], "emotes")
    {
      assert ts[..i + 1] == ts[..i] + [ts[i]];
      LastValuedSnoc(ts[..i], ts[i], "id");
      LastValuedSnoc(ts[..i], ts[i], "msg-id");
      LastValuedSnoc(ts[..i], ts[i], "display-name");
      LastValuedSnoc(ts[..i], ts[i], "user-id");
      LastValuedSnoc(ts[..i], ts[i], "color");
      LastValuedSnoc(ts[..i], ts[i], "emotes");
      t := Absorb(t, ts[i]);
      i := i + 1;
    }
    assert ts[..i] == ts;
  }

  /** `ClearMsgTags::from_tags`: the id of the message a CLEARMSG removes, which is the
      last valued `target-msg-id` tag; without one the CLEARMSG is ignored. */
  method ClearMsgTarget(tags: Option<seq<Tag>>) returns (target: Option<string>)
    ensures tags.None? ==> target.None?
    ensures tags.Some? ==> target == LastValued(tags.value, "target-msg-id")
  {
    target := None;
    if tags.None? {
      return;
    }
    var ts := tags.value;
    var i := 0;
    while i < |ts|
      invariant 0 <= i <= |ts|
      invariant target == LastValued(ts[..i], "target-msg-id")
    {
      assert ts[..i + 1] == ts[..i] + [ts[i]];
      LastValuedSnoc(ts[..i], ts[i], "target-msg-id");
      if ts[i].name == "target-msg-id" && ts[i].value.Some? {
        target := ts[i].value;
      }
      i := i + 1;
    }
    assert ts[..i] == ts;
  }
}

=== FILE: text.dfy ===
/** String helpers with the meaning of the Rust standard library operations they stand for. */
module Text {
  import opened Wrappers

  /** Rust's `char::is_whitespace`: the Unicode White_Space property. */
  predicate IsWhitespace(c: char) {
    var n := c as int;
    (9 <= n <= 13) || n == 0x20 || n == 0x85 || n == 0xA0 || n == 0x1680
    || (0x2000 <= n <= 0x200A) || n == 0x2028 || n == 0x2029 || n == 0x202F
    || n == 0x205F || n == 0x3000
  }

  predicate AllWhitespace(s: string) {
    forall i :: 0 <= i < |s| ==> IsWhitespace(s[i])
  }

  /** Whitespace in front of whitespace is whitespace. */
  lemma WhitespaceCons(c: char, w: string)
    requires IsWhitespace(c) && AllWhitespace(w)
    ensures AllWhitespace([c] + w)
  {
    assert forall i :: 0 < i < |[c] + w| ==> ([c] + w)[i] == w[i - 1];
  }

  /** Whitespace after whitespace is whitespace. */
  lemma WhitespaceSnoc(w: string, c: char)
    requires IsWhitespace(c) && AllWhitespace(w)
    ensures AllWhitespace(w + [c])
  {
    assert forall i :: 0 <= i < |w| ==> (w + [c])[i] == w[i];
  }

  /** `s` has no whitespace at either end. */
  predicate IsTrimmed(s: string) {
    |s| == 0 || (!IsWhitespace(s[0]) && !IsWhitespace(s[|s| - 1]))
  }

  /** Rust's `str::trim_start`. */
  function TrimStart(s: string): (r: string)
    ensures |r| <= |s| && r == s[|s| - |r|..]
    ensures AllWhitespace(s[..|s| - |r|])
    ensures |r| == 0 || !IsWhitespace(r[0])
  {
    if |s| > 0 && IsWhitespace(s[0]) then
      var r := TrimStart(s[1..]);
      assert s[..|s| - |r|] == [s[0]] + s[1..][..|s| - 1 - |r|];
      assert s[|s| - |r|..] == s[1..][|s| - 1 - |r|..];
      WhitespaceCons(s[0], s[1..][..|s| - 1 - |r|]);
      r
    else
      assert s[..0] == [];
      s
  }

  /** Rust's `str::trim_end`. */
  function TrimEnd(s: string): (r: string)
    ensures |r| <= |s| && r == s[..|r|]
    ensures AllWhitespace(s[|r|..])
    ensures |r| == 0 || !IsWhitespace(r[|r| - 1])
  {
    if |s| > 0 && IsWhitespace(s[|s| - 1]) then
      var r := TrimEnd(s[..|s| - 1]);
      assert s[|r|..] == s[..|s| - 1][|r|..] + [s[|s| - 1]];
      assert s[..|r|] == s[..|s| - 1][..|r|];
      WhitespaceSnoc(s[..|s| - 1][|r|..], s[|s| - 1]);
      r
    else
      assert s[|s|..] == [];
      s
  }

  /** Rust's `str::trim`: removes whitespace, and only whitespace, from both ends. */
  function Trim(s: string): (r: string)
    ensures IsTrimmed(r) && |r| <= |s|
    ensures IsTrimmed(s) ==> r == s
    ensures |r| == 0 <==> AllWhitespace(s)
    ensures EndsStripped(s, r)
  {
    var a := TrimStart(s);
    var r := TrimEnd(a);
    assert |r| == 0 && |s| > 0 ==> s == s[..|s| - |a|] + a[|r|..];
    StripBoth(s, a, r);
    r
  }

  /** `r` is `s` with whitespace, and only whitespace, taken off its two ends. */
  predicate EndsStripped(s: string, r: string) {
    exists i :: 0 <= i <= |s| - |r| && r == s[i..i + |r|]
                && AllWhitespace(s[..i]) && AllWhitespace(s[i + |r|..])
  }

  /** Stripping a whitespace prefix and then a whitespace suffix strips both ends. */
  lemma StripBoth(s: string, a: string, r: string)
    requires |a| <= |s| && a == s[|s| - |a|..] && AllWhitespace(s[..|s| - |a|])
    requires |r| <= |a| && r == a[..|r|] && AllWhitespace(a[|r|..])
    ensures EndsStripped(s, r)
  {
    var i := |s| - |a|;
    assert a[|r|..] == s[i + |r|..];
    assert r == s[i..i + |r|];
  }

  /** `Trim` keeps a contiguous part of its argument, so it adds no characters. */
  lemma TrimInfix(s: string)
    ensures forall c :: c in Trim(s) ==> c in s
  {
    var a := TrimStart(s);
    assert forall c :: c in TrimEnd(a) ==> c in a;
  }

  /** Leading whitespace in front of a trimmed string is removed by `Trim`. */
  lemma {:induction false} TrimLeading(w: string, s: string)
    requires AllWhitespace(w) && IsTrimmed(s) && |s| > 0
    ensures Trim(w + s) == s
  {
    if |w| == 0 {
      assert w + s == s;
    } else {
      assert (w + s)[1..] == w[1..] + s;
      TrimLeading(w[1..], s);
      assert TrimStart(w + s) == TrimStart(w[1..] + s);
    }
  }

  /** Rust's `str::trim_end_matches(c)` for a single character. */
  function TrimEndMatches(s: string, c: char): (r: string)
    ensures |r| <= |s| && r == s[..|r|]
    ensures forall i :: |r| <= i < |s| ==> s[i] == c
    ensures |r| == 0 || r[|r| - 1] != c
  {
    if |s| > 0 && s[|s| - 1] == c then TrimEndMatches(s[..|s| - 1], c) else s
  }

  /** One more trailing `c` is trimmed with the rest. */
  lemma TrimEndMatchesSnoc(s: string, c: char)
    ensures TrimEndMatches(s + [c], c) == TrimEndMatches(s, c)
  {
    assert (s + [c])[..|s|] == s;
  }

  /** Rust's `str::find(c)`: the index of the first occurrence of `c`. */
  function Find(s: string, c: char): (r: Option<nat>)
    ensures r.None? <==> c !in s
    ensures r.Some? ==> r.value < |s| && s[r.value] == c && c !in s[..r.value]
  {
    if |s| == 0 then None
    else if s[0] == c then Some(0)
    else match Find(s[1..], c)
      case None => None
      case Some(i) => Some(i + 1)
  }

  /** `Find` reports the first occurrence: an index holding `c` with no `c` before it. */
  lemma FindFirst(s: string, c: char, i: nat)
    requires i < |s| && s[i] == c
    requires forall j :: 0 <= j < i ==> s[j] != c
    ensures Find(s, c) == Some(i)
  {
    var r := Find(s, c);
    assert s[i] in s;
    forall j | 0 <= j < r.value
      ensures s[j] != c
    {
      assert s[..r.value][j] == s[j];
    }
  }

  /** Concatenates `parts`, putting `sep` between consecutive parts (Rust's `join`). */
  function Join(parts: seq<string>, sep: string): string {
    if |parts| == 0 then ""
    else if |parts| == 1 then parts[0]
    else parts[0] + sep + Join(parts[1..], sep)
  }

  /** Rust's `str::split(c)` for a single character: never empty, and the pieces
      contain no `c`. */
  function Split(s: string, c: char): (r: seq<string>)
    ensures |r| >= 1
    ensures forall i :: 0 <= i < |r| ==> c !in r[i]
    ensures Join(r, [c]) == s
    decreases |s|
  {
    match Find(s, c)
    case None => [s]
    case Some(i) =>
      var rest := Split(s[i + 1..], c);
      assert s == s[..i] + [c] + s[i + 1..];
      [s[..i]] + rest
  }

  /** Splitting a join of pieces that do not contain the separator gives the pieces back. */
  lemma {:induction false} SplitJoin(parts: seq<string>, c: char)
    requires |parts| >= 1
    requires forall i :: 0 <= i < |parts| ==> c !in parts[i]
    ensures Split(Join(parts, [c]), c) == parts
  {
    if |parts| == 1 {
      assert Find(parts[0], c).None?;
    } else {
      var s := Join(parts, [c]);
      assert s == parts[0] + [c] + Join(parts[1..], [c]);
      assert s[..|parts[0]|] == parts[0];
      assert s[|parts[0]|] == c;
      assert Find(s, c) == Some(|parts[0]|);
      assert s[|parts[0]| + 1..] == Join(parts[1..], [c]);
      SplitJoin(parts[1..], c);
    }
  }

  /** ASCII lower-casing of one character. */
  function LowerChar(c: char): char {
    if 'A' <= c <= 'Z' then (c as int + 32) as char else c
  }

  /** Rust's `str::to_lowercase`, restricted to the ASCII letters. */
  function ToLower(s: string): (r: string)
    ensures |r| == |s|
    ensures forall i :: 0 <= i < |s| ==> r[i] == LowerChar(s[i])
  {
    if |s| == 0 then "" else [LowerChar(s[0])] + ToLower(s[1..])
  }

  predicate IsLower(s: string) {
    forall i :: 0 <= i < |s| ==> !('A' <= s[i] <= 'Z')
  }

  /** Lower-casing yields a lower-case string and is idempotent. */
  lemma ToLowerIdempotent(s: string)
    ensures IsLower(ToLower(s))
    ensures ToLower(ToLower(s)) == ToLower(s)
  {
  }

  /** The decimal digits of `n`, as Rust's `Display` for unsigned integers. */
  function NatToString(n: nat): (r: string)
    ensures |r| >= 1
    ensures forall i :: 0 <= i < |r| ==> '0' <= r[i] <= '9'
    ensures DecimalValue(r) == n
    ensures n > 0 ==> r[0] != '0'
  {
    var d := ['0' + (n % 10) as char];
    if n < 10 then d else NatToString(n / 10) + d
  }

  /** The number a string of decimal digits denotes. */
  function DecimalValue(s: string): nat {
    if |s| == 0 then 0
    else
      var c := s[|s| - 1];
      var d := if '0' <= c <= '9' then c as int - '0' as int else 0;
      DecimalValue(s[..|s| - 1]) * 10 + d
  }

  /** `t` is a suffix of `s`. */
  predicate EndsWith(s: string, t: string) {
    |s| >= |t| && s[|s| - |t|..] == t
  }

  /** `t` is a prefix of `s`. */
  predicate StartsWith(s: string, t: string) {
    |s| >= |t| && s[..|t|] == t
  }

  /** A join ends with its last part and, with more than one part, opens with the first
      part and the separator. */
  lemma {:induction false} JoinEnds(parts: seq<string>, sep: string)
    requires |parts| >= 1
    ensures EndsWith(Join(parts, sep), parts[|parts| - 1])
    ensures |parts| == 1 ==> Join(parts, sep) == parts[0]
    ensures |parts| > 1 ==> StartsWith(Join(parts, sep), parts[0] + sep)
  {
    if |parts| == 1 {
      assert Join(parts, sep)[|parts[0]| - |parts[0]|..] == parts[0];
    } else {
      var rest := Join(parts[1..], sep);
      JoinEnds(parts[1..], sep);
      assert parts[1..][|parts[1..]| - 1] == parts[|parts| - 1];
      EndsWithConcat(parts[0] + sep, rest, parts[|parts| - 1]);
      assert Join(parts, sep) == (parts[0] + sep) + rest;
      assert ((parts[0] + sep) + rest)[..|parts[0] + sep|] == parts[0] + sep;
    }
  }

  /** A join between a prefix and a tail ends with the tail, and with the last part
      followed by the tail. */
  lemma FramedJoinEnds(prefix: string, parts: seq<string>, sep: string, tail: string)
    ensures EndsWith(prefix + Join(parts, sep) + tail, tail)
    ensures |parts| > 0 ==> EndsWith(prefix + Join(parts, sep) + tail, parts[|parts| - 1] + tail)
  {
    var joined := Join(parts, sep);
    assert prefix + joined + tail == prefix + (joined + tail);
    EndsWithConcat(joined, tail, tail);
    EndsWithConcat(prefix, joined + tail, tail);
    if |parts| > 0 {
      JoinEnds(parts, sep);
      EndsWithAppend(joined, parts[|parts| - 1], tail);
      EndsWithConcat(prefix, joined + tail, parts[|parts| - 1] + tail);
    }
  }

  /** Appending the same text to a string and to its suffix keeps the suffix. */
  lemma EndsWithAppend(a: string, b: string, c: string)
    requires EndsWith(a, b)
    ensures EndsWith(a + c, b + c)
  {
    assert (a + c)[|a + c| - |b + c|..] == a[|a| - |b|..] + c;
  }

  /** A concatenation ends with its right operand, and suffixes compose. */
  lemma EndsWithConcat(a: string, b: string, c: string)
    ensures EndsWith(a + b, b)
    ensures EndsWith(b, c) ==> EndsWith(a + b, c)
  {
    assert (a + b)[|a + b| - |b|..] == b;
    if EndsWith(b, c) {
      assert (a + b)[|a + b| - |c|..] == b[|b| - |c|..];
    }
  }

  /** Suffixes of suffixes are suffixes. */
  lemma EndsWithTrans(a: string, b: string, c: string)
    requires EndsWith(a, b) && EndsWith(b, c)
    ensures EndsWith(a, c)
  {
    assert a[|a| - |c|..] == a[|a| - |b|..][|b| - |c|..];
  }
}

=== FILE: themes.dfy ===
/** The theme store (db/themes.rs): theme songs keyed by channel and name, with a start
    offset and optional end offset into the track, kept in step with the `themes` table.
    Offsets are whole milliseconds held as unsigned 32-bit counts; the table stores them
    as signed 32-bit integers. */
module Themes {
  import opened Wrappers
  import Text
  import opened Stores

  type i32 = x: int | -0x8000_0000 <= x < 0x8000_0000
  type u32 = x: int | 0 <= x < 0x1_0000_0000

  /** `as i32` on a `u32`: the same bits read as two's complement. */
  function AsI32(n: u32): (r: i32)
    ensures n < 0x8000_0000 ==> r == n
    ensures n >= 0x8000_0000 ==> r == n - 0x1_0000_0000
  {
    if n < 0x8000_0000 then n else n - 0x1_0000_0000
  }

  /** `as u32` on an `i32`: the same bits read as unsigned. */
  function AsU32(x: i32): (r: u32)
    ensures x >= 0 ==> r == x
    ensures x < 0 ==> r == x + 0x1_0000_0000
  {
    if x < 0 then x + 0x1_0000_0000 else x
  }

  /** Storing an offset and reading it back gives the offset again. */
  lemma OffsetRoundTrip(n: u32)
    ensures AsU32(AsI32(n)) == n
  {
  }

  function MapU32(x: Option<i32>): (r: Option<u32>)
    ensures r.Some? <==> x.Some?
    ensures r.Some? ==> r.value == AsU32(x.value)
  {
    if x.Some? then Some(AsU32(x.value)) else None
  }

  function MapI32(x: Option<u32>): (r: Option<i32>)
    ensures r.Some? <==> x.Some?
    ensures r.Some? ==> r.value == AsI32(x.value)
  {
    if x.Some? then Some(AsI32(x.value)) else None
  }

  /** A row of the `themes` table. */
  datatype Row = Row(channel: string, name: string, trackId: string, start: i32, end: Option<i32>,
                     group: Option<string>, disabled: bool)

  /** An in-memory theme. */
  datatype Theme = Theme(key: Key, trackId: string, start: u32, end: Option<u32>,
                         group: Option<string>, disabled: bool)

  type Store = map<Key, Theme>
  type Table = map<Key, Row>

  predicate WellKeyed(store: Store) {
    forall k :: k in store ==> store[k].key == k
  }

  ghost predicate Unchanged(before: Store, after: Store, key: Key) {
    forall k :: k != key ==> (k in before <==> k in after) && (k in before ==> before[k] == after[k])
  }

  /** `Database::edit`: a new key gets an enabled row starting at 0 with no end, which is
      reported; an existing row has its track replaced and is reported as it was, unless
      disabled. */
  function DbEdit(table: Table, key: Key, trackId: string): (r: (Table, Option<Row>))
    ensures key in r.0 && r.0[key].trackId == trackId
    ensures key !in table ==> r.0[key] == Row(key.channel, key.name, trackId, 0, None, None, false) && r.1 == Some(r.0[key])
    ensures key in table ==> r.0[key] == table[key].(trackId := trackId)
    ensures key in table ==> r.1 == (if table[key].disabled then None else Some(table[key]))
  {
    if key !in table then
      var row := Row(key.channel, key.name, trackId, 0, None, None, false);
      (table[key := row], Some(row))
    else
      var row := table[key];
      (table[key := row.(trackId := trackId)], if row.disabled then None else Some(row))
  }

  /** `Themes::edit`: a database failure changes nothing; a reported row is stored with
      the new track and the row's offsets, group and disabled flag; no report removes
      the theme. */
  function Edit(store: Store, channel: string, name: string, trackId: string, db: Db<Option<Row>>): (r: Result<Store, ()>)
    requires WellKeyed(store)
    ensures db.DbFailed? <==> r.Err?
    ensures r.Ok? ==> WellKeyed(r.value) && Unchanged(store, r.value, NewKey(channel, name))
    ensures r.Ok? ==> (NewKey(channel, name) in r.value <==> db.value.Some?)
    ensures r.Ok? && db.value.Some? ==>
              var t := r.value[NewKey(channel, name)];
              var row := db.value.value;
              && t.trackId == trackId && t.start == AsU32(row.start) && t.end == MapU32(row.end)
              && t.group == row.group && t.disabled == row.disabled
  {
    var key := NewKey(channel, name);
    match db
    case DbFailed => Err(())
    case DbOk(Some(row)) => Ok(store[key := Theme(key, trackId, AsU32(row.start), MapU32(row.end), row.group, row.disabled)])
    case DbOk(None) => Ok(store - {key})
  }

  /** Editing against the table: a new theme starts at 0 with no end; an existing enabled
      one keeps its offsets and takes the new track; a disabled one leaves memory. */
  lemma EditAgainstTable(store: Store, table: Table, channel: string, name: string, trackId: string)
    requires WellKeyed(store)
    ensures var key := NewKey(channel, name);
            var r := Edit(store, channel, name, trackId, DbOk(DbEdit(table, key, trackId).1));
            && r.Ok?
            && (key in r.value <==> key !in table || !table[key].disabled)
            && (key !in table ==> r.value[key] == Theme(key, trackId, 0, None, None, false))
            && (key in r.value && key in table ==>
                  r.value[key] == Theme(key, trackId, AsU32(table[key].start), MapU32(table[key].end),
                                        table[key].group, false))
  {
  }

  /** `Database::edit_duration`: the offsets of the row, if there is one, are replaced. */
  function DbEditDuration(table: Table, key: Key, start: u32, end: Option<u32>): (r: Table)
    ensures key in table ==> r == table[key := table[key].(start := AsI32(start), end := MapI32(end))]
    ensures key !in table ==> r == table
  {
    if key in table then table[key := table[key].(start := AsI32(start), end := MapI32(end))] else table
  }

  /** `Themes::edit_duration`: after the database accepts the change, an existing theme
      gets the new offsets and nothing else changes; an absent one is not created. */
  function EditDuration(store: Store, channel: string, name: string, start: u32, end: Option<u32>,
                        db: Db<()>): (r: Result<Store, ()>)
    requires WellKeyed(store)
    ensures db.DbFailed? <==> r.Err?
    ensures r.Ok? ==> WellKeyed(r.value) && Unchanged(store, r.value, NewKey(channel, name))
    ensures r.Ok? ==> (NewKey(channel, name) in r.value <==> NewKey(channel, name) in store)
    ensures r.Ok? && NewKey(channel, name) in store ==>
              r.value[NewKey(channel, name)] == store[NewKey(channel, name)].(start := start, end := end)
  {
    var key := NewKey(channel, name);
    if db.DbFailed? then Err(())
    else if key in store then Ok(store[key := store[key].(start := start, end := end)])
    else Ok(store)
  }

  /** `Theme::from_db`: the key the row's columns name and its offsets read back as
      unsigned counts. */
  function FromDb(row: Row): (t: Theme)
    ensures t.key == NewKey(row.channel, row.name)
    ensures t.trackId == row.trackId && t.start == AsU32(row.start) && t.end == MapU32(row.end)
    ensures t.group == row.group && t.disabled == row.disabled
    ensures row.start >= 0 ==> t.start == row.start
  {
    Theme(NewKey(row.channel, row.name), row.trackId, AsU32(row.start), MapU32(row.end), row.group, row.disabled)
  }

  /** New offsets survive storage: reloading the edited row yields the theme held in
      memory, whenever that theme was itself loaded from the row. */
  lemma DurationSurvivesReload(store: Store, table: Table, channel: string, name: string,
                               start: u32, end: Option<u32>)
    requires WellKeyed(store)
    requires var key := NewKey(channel, name);
             key in store && key in table && FromDb(table[key]) == store[key]
    ensures var key := NewKey(channel, name);
            var r := EditDuration(store, channel, name, start, end, DbOk(()));
            r.Ok? && FromDb(DbEditDuration(table, key, start, end)[key]) == r.value[key]
  {
    var key := NewKey(channel, name);
    OffsetRoundTrip(start);
    if end.Some? {
      OffsetRoundTrip(end.value);
    }
  }

  /** The end offset as displayed: `*none*` when there is none. */
  function EndTail(end: Option<u32>, group: Option<string>, disabled: bool, offsetText: u32 -> string): (r: string)
    ensures Text.EndsWith(r, GroupTail(group, disabled))
    ensures end.None? ==> r == ", end = *none*" + GroupTail(group, disabled)
  {
    var e := if end.Some? then offsetText(end.value) else "*none*";
    Text.EndsWithConcat(", end = " + e, GroupTail(group, disabled), "");
    ", end = " + e + GroupTail(group, disabled)
  }

  /** `Display for Theme`; how an offset is written is a parameter. */
  function Display(t: Theme, offsetText: u32 -> string): (r: string)
    ensures |r| >= |"track_id = "| && r[..|"track_id = "|] == "track_id = "
    ensures Text.EndsWith(r, ", disabled = " + BoolText(t.disabled))
    ensures Text.EndsWith(r, EndTail(t.end, t.group, t.disabled, offsetText))
  {
    var head := "track_id = " + t.trackId + ", start = " + offsetText(t.start);
    var tail := EndTail(t.end, t.group, t.disabled, offsetText);
    Text.EndsWithConcat(head, tail, GroupTail(t.group, t.disabled));
    Text.EndsWithConcat(head, tail, tail);
    Text.EndsWithTrans(head + tail, GroupTail(t.group, t.disabled), ", disabled = " + BoolText(t.disabled));
    head + tail
  }
}

=== FILE: vehicles.dfy ===
/** The vehicles a GTA V reward can name (module/gtav/vehicle.rs `Vehicle`). Ten
    categories are built in; every other vehicle is a row of the vehicle table and is
    represented by its id. */
module Vehicles {
  import opened Wrappers

  datatype Vehicle =
    | Random | Slow | Normal | Fast | Bike | PedalBike | FighterJet | JetSki | Tank | Sub
    | Model(id: string)

  /** The ids of the 647 rows of the vehicle table (vehicle.rs lines 130-776). */
  predicate IsModelId(s: string) {
    s in {
      "adder", "airbus", "airtug", "akula", "akuma", "alpha", "alphaz1", "ambulance",
      "annihilator", "apc", "ardent", "armytanker", "armytrailer", "armytrailer2", "asea", "asea2",
      "asterope", "autarch", "avarus", "avenger", "avenger2", "bagger", "baletrailer", "baller",
      "baller2", "baller3", "baller4", "baller5", "baller6", "banshee", "banshee2", "barracks",
      "barracks2", "barracks3", "barrage", "bati", "bati2", "benson", "besra", "bestiagts",
      "bf400", "bfinjection", "biff", "bifta", "bison", "bison2", "bison3", "bjxl", "blade",
      "blazer", "blazer2", "blazer3", "blazer4", "blazer5", "blimp", "blimp2", "blimp3", "blista",
      "blista2", "blista3", "bmx", "boattrailer", "bobcatxl", "bodhi2", "bombushka", "boxville",
      "boxville2", "boxville3", "boxville4", "boxville5", "brawler", "brickade", "brioso",
      "bruiser", "bruiser2", "bruiser3", "brutus", "brutus2", "brutus3", "btype", "btype2",
      "btype3", "buccaneer", "buccaneer2", "buffalo", "buffalo2", "buffalo3", "bulldozer",
      "bullet", "burrito", "burrito2", "burrito3", "burrito4", "burrito5", "bus", "buzzard",
      "buzzard2", "cablecar", "caddy", "caddy2", "caddy3", "camper", "caracara", "carbonizzare",
      "carbonrs", "cargobob", "cargobob2", "cargobob3", "cargobob4", "cargoplane", "casco",
      "cavalcade", "cavalcade2", "cerberus", "cerberus2", "cerberus3", "cheburek", "cheetah",
      "cheetah2", "chernobog", "chimera", "chino", "chino2", "cliffhanger", "clique", "coach",
      "cog55", "cog552", "cogcabrio", "cognoscenti", "cognoscenti2", "comet2", "comet3", "comet4",
      "comet5", "contender", "coquette", "coquette2", "coquette3", "cruiser", "crusader",
      "cuban800", "cutter", "cyclone", "daemon", "daemon2", "deathbike", "deathbike2",
      "deathbike3", "defiler", "deluxo", "deveste", "deviant", "diablous", "diablous2",
      "dilettante", "dilettante2", "dinghy", "dinghy2", "dinghy3", "dinghy4", "dloader",
      "docktrailer", "docktug", "dodo", "dominator", "dominator2", "dominator3", "dominator4",
      "dominator5", "dominator6", "double", "dubsta", "dubsta2", "dubsta3", "dukes", "dukes2",
      "dump", "dune", "dune2", "dune3", "dune4", "dune5", "duster", "elegy", "elegy2", "ellie",
      "emperor", "emperor2", "emperor3", "enduro", "entityxf", "entityxxr", "esskey", "exemplar",
      "f620", "faction", "faction2", "faction3", "fagaloa", "faggio", "faggio2", "faggio3", "fbi",
      "fbi2", "fcr", "fcr2", "felon", "felon2", "feltzer2", "feltzer3", "firetruck", "fixter",
      "flashgt", "flatbed", "fmj", "forklift", "fq2", "freecrawler", "freight", "freightcar",
      "freightcont1", "freightcont2", "freightgrain", "freighttrailer", "frogger", "frogger2",
      "fugitive", "furoregt", "fusilade", "futo", "gargoyle", "gauntlet", "gauntlet2", "gb200",
      "gburrito", "gburrito2", "glendale", "gp1", "graintrailer", "granger", "gresley", "gt500",
      "guardian", "habanero", "hakuchou", "hakuchou2", "halftrack", "handler", "hauler", "hauler2",
      "havok", "hermes", "hexer", "hotknife", "hotringsabre", "howard", "hunter", "huntley",
      "hustler", "hydra", "impaler", "impaler2", "impaler3", "impaler4", "imperator", "imperator2",
      "imperator3", "infernus", "infernus2", "ingot", "innovation", "insurgent", "insurgent2",
      "insurgent3", "intruder", "issi2", "issi3", "issi4", "issi5", "issi6", "italigtb",
      "italigtb2", "italigto", "jackal", "jb700", "jester", "jester2", "jester3", "jet", "jetmax",
      "journey", "kalahari", "kamacho", "khamelion", "khanjari", "kuruma", "kuruma2",
      "landstalker", "lazer", "le7b", "lectro", "lguard", "limo2", "lurcher", "luxor", "luxor2",
      "lynx", "mamba", "mammatus", "manana", "manchez", "marquis", "marshall", "massacro",
      "massacro2", "maverick", "menacer", "mesa", "mesa2", "mesa3", "metrotrain", "michelli",
      "microlight", "miljet", "minivan", "minivan2", "mixer", "mixer2", "mogul", "molotok",
      "monroe", "monster", "monster3", "monster4", "monster5", "moonbeam", "moonbeam2", "mower",
      "mule", "mule2", "mule3", "mule4", "nemesis", "neon", "nero", "nero2", "nightblade",
      "nightshade", "nightshark", "nimbus", "ninef", "ninef2", "nokota", "omnis", "oppressor",
      "oppressor2", "oracle", "oracle2", "osiris", "packer", "panto", "paradise", "pariah",
      "patriot", "pbus", "pbus2", "pcj", "penetrator", "penumbra", "peyote", "pfister811",
      "phantom", "phantom2", "phantom3", "phoenix", "picador", "pigalle", "police", "police2",
      "police3", "police4", "policeb", "policeold1", "policeold2", "policet", "polmav", "pony",
      "pony2", "pounder", "pounder2", "prairie", "pranger", "predator", "premier", "primo",
      "primo2", "proptrailer", "prototipo", "pyro", "radi", "raiden", "raketrailer", "rallytruck",
      "rancherxl", "rancherxl2", "rapidgt", "rapidgt2", "rapidgt3", "raptor", "ratbike",
      "ratloader", "ratloader2", "rcbandito", "reaper", "rebel", "rebel2", "regina", "rentalbus",
      "retinue", "revolter", "rhapsody", "rhino", "riata", "riot", "riot2", "ripley", "rocoto",
      "rogue", "romero", "rubble", "ruffian", "ruiner", "ruiner2", "ruiner3", "rumpo", "rumpo2",
      "rumpo3", "ruston", "sabregt", "sabregt2", "sadler", "sadler2", "sanchez", "sanchez2",
      "sanctus", "sandking", "sandking2", "savage", "savestra", "sc1", "scarab", "scarab2",
      "scarab3", "schafter2", "schafter3", "schafter4", "schafter5", "schafter6", "schlagen",
      "schwarzer", "scorcher", "scramjet", "scrap", "seabreeze", "seashark", "seashark2",
      "seashark3", "seasparrow", "seminole", "sentinel", "sentinel2", "sentinel3", "serrano",
      "seven70", "shamal", "sheava", "sheriff", "sheriff2", "shotaro", "skylift", "slamvan",
      "slamvan2", "slamvan3", "slamvan4", "slamvan5", "slamvan6", "sovereign", "specter",
      "specter2", "speeder", "speeder2", "speedo", "speedo2", "speedo4", "squalo", "stafford",
      "stalion", "stalion2", "stanier", "starling", "stinger", "stingergt", "stockade",
      "stockade3", "stratum", "streiter", "stretch", "strikeforce", "stromberg", "stunt",
      "submersible", "submersible2", "sultan", "sultanrs", "suntrap", "superd", "supervolito",
      "supervolito2", "surano", "surfer", "surfer2", "surge", "swift", "swift2", "swinger", "t20",
      "taco", "tailgater", "taipan", "tampa", "tampa2", "tampa3", "tanker", "tanker2", "tankercar",
      "taxi", "technical", "technical2", "technical3", "tempesta", "terrorbyte", "tezeract",
      "thrust", "thruster", "tiptruck", "tiptruck2", "titan", "torero", "tornado", "tornado2",
      "tornado3", "tornado4", "tornado5", "tornado6", "toro", "toro2", "toros", "tourbus",
      "towtruck", "towtruck2", "tr2", "tr3", "tr4", "tractor", "tractor2", "tractor3",
      "trailerlarge", "trailerlogs", "trailers", "trailers2", "trailers3", "trailers4",
      "trailersmall", "trailersmall2", "trash", "trash2", "trflat", "tribike", "tribike2",
      "tribike3", "trophytruck", "trophytruck2", "tropic", "tropic2", "tropos", "tug", "tula",
      "tulip", "turismo2", "turismor", "tvtrailer", "tyrant", "tyrus", "utilitytruck",
      "utilitytruck2", "utilitytruck3", "utillitruck", "utillitruck2", "utillitruck3", "vacca",
      "vader", "vagner", "valkyrie", "valkyrie2", "vamos", "velum", "velum2", "verlierer2",
      "vestra", "vigero", "vigilante", "vindicator", "virgo", "virgo2", "virgo3", "viseris",
      "visione", "volatol", "volatus", "voltic", "voltic2", "voodoo", "voodoo2", "vortex",
      "warrener", "washington", "wastelander", "windsor", "windsor2", "wolfsbane", "xa21", "xls",
      "xls2", "yosemite", "youga", "youga2", "z190", "zentorno", "zion", "zion2", "zombiea",
      "zombieb", "zr380", "zr3802", "zr3803", "ztype"
    }
  }

  /** A vehicle the enum can hold: a built-in category or a row of the table. */
  predicate Valid(v: Vehicle) {
    v.Model? ==> IsModelId(v.id)
  }

  /** The id of a built-in category. */
  function BuiltInId(v: Vehicle): (r: string)
    requires !v.Model?
  {
    match v
    case Random => "random"
    case Slow => "slow"
    case Normal => "normal"
    case Fast => "fast"
    case Bike => "bike"
    case PedalBike => "pedalbike"
    case FighterJet => "fighter-jet"
    case JetSki => "jet-ski"
    case Tank => "tank"
    case Sub => "sub"
  }

  /** `Display for Vehicle`: the vehicle's id. */
  function ToString(v: Vehicle): (r: string)
    ensures v.Model? ==> r == v.id
    ensures !v.Model? ==> r == BuiltInId(v)
  {
    if v.Model? then v.id else BuiltInId(v)
  }

  /** `Vehicle::from_id`: the vehicle with exactly this id, compared case-sensitively. */
  function FromId(id: string): (r: Option<Vehicle>)
    ensures r.Some? ==> ToString(r.value) == id
    ensures r.None? <==> !IsModelId(id) && id !in BuiltInIds
  {
    if id == "random" then Some(Random)
    else if id == "slow" then Some(Slow)
    else if id == "normal" then Some(Normal)
    else if id == "fast" then Some(Fast)
    else if id == "bike" then Some(Bike)
    else if id == "pedalbike" then Some(PedalBike)
    else if id == "fighter-jet" then Some(FighterJet)
    else if id == "jet-ski" then Some(JetSki)
    else if id == "tank" then Some(Tank)
    else if id == "sub" then Some(Sub)
    else if IsModelId(id) then Some(Model(id))
    else None
  }

  const BuiltInIds: set<string> :=
    {"random", "slow", "normal", "fast", "bike", "pedalbike", "fighter-jet", "jet-ski", "tank", "sub"}

  /** No row of the table reuses the id of a built-in category. */
  lemma BuiltInIdsNotInTable()
    ensures forall id :: id in BuiltInIds ==> !IsModelId(id)
  {
    NotInTable0();
    NotInTable1();
    NotInTable2();
    NotInTable3();
    NotInTable4();
    NotInTable5();
    NotInTable6();
    NotInTable7();
    NotInTable8();
    NotInTable9();
  }

  lemma NotInTable0() ensures !IsModelId("random") {}
  lemma NotInTable1() ensures !IsModelId("slow") {}
  lemma NotInTable2() ensures !IsModelId("normal") {}
  lemma NotInTable3() ensures !IsModelId("fast") {}
  lemma NotInTable4() ensures !IsModelId("bike") {}
  lemma NotInTable5() ensures !IsModelId("pedalbike") {}
  lemma NotInTable6() ensures !IsModelId("fighter-jet") {}
  lemma NotInTable7() ensures !IsModelId("jet-ski") {}
  lemma NotInTable8() ensures !IsModelId("tank") {}
  lemma NotInTable9() ensures !IsModelId("sub") {}

  /** Every vehicle an id names is one the enum can hold. */
  lemma FromIdValid(id: string)
    ensures FromId(id).Some? ==> Valid(FromId(id).value)
  {
  }

  /** Every vehicle is found again by its id. */
  lemma RoundTrip(v: Vehicle)
    requires Valid(v)
    ensures FromId(ToString(v)) == Some(v)
  {
    BuiltInIdsNotInTable();
  }

  /** Distinct vehicles have distinct ids. */
  lemma IdsDistinct(v: Vehicle, w: Vehicle)
    requires Valid(v) && Valid(w) && v != w
    ensures ToString(v) != ToString(w)
  {
    RoundTrip(v);
    RoundTrip(w);
  }

  /** `Vehicle::cost`: the built-in costs, 50 for table rows except the gauntlet (30)
      and the hydra (60). */
  function Cost(v: Vehicle): (r: nat)
    ensures 10 <= r <= 60
    ensures v == Random || v == PedalBike || v == JetSki ==> r == 10
    ensures v == Slow || v == Normal || v == Sub ==> r == 20
    ensures v == Fast ==> r == 30
    ensures v == Bike || v == FighterJet || v == Tank ==> r == 50
    ensures v == Model("gauntlet") ==> r == 30
    ensures v == Model("hydra") ==> r == 60
    ensures v.Model? && v.id != "gauntlet" && v.id != "hydra" ==> r == 50
  {
    match v
    case Random => 10
    case Slow => 20
    case Normal => 20
    case Fast => 30
    case Bike => 50
    case PedalBike => 10
    case FighterJet => 50
    case JetSki => 10
    case Tank => 50
    case Sub => 20
    case Model(id) => if id == "gauntlet" then 30 else if id == "hydra" then 60 else 50
  }

  /** `Vehicle::display`: how a reward names the vehicle. */
  function Display(v: Vehicle): (r: string)
    ensures v.Model? ==> r == "a " + v.id + "!"
  {
    match v
    case Random => "a random vehicle BlessRNG"
    case Slow => "something slow PepeHands"
    case Normal => "a normal car"
    case Fast => "something fast monkaSpeed"
    case Bike => "a bike!"
    case PedalBike => "a... bike?"
    case FighterJet => "a fighter jet DansRage"
    case JetSki => "a jet ski DansRage"
    case Tank => "a tank!"
    case Sub => "a submarine!"
    case Model(id) => "a " + id + "!"
  }

  /** The table row the category list names as the blimp. */
  const Blimp := Model("blimp")

  /** `Vehicle::cars`. */
  function Cars(): (r: seq<Vehicle>)
    ensures r == [Slow, Normal, Fast]
    ensures forall i :: 0 <= i < |r| ==> Valid(r[i]) && !r[i].Model?
  {
    [Slow, Normal, Fast]
  }

  /** `Vehicle::categories`. */
  function Categories(): (r: seq<Vehicle>)
    ensures |r| == 11 && forall i :: 0 <= i < |r| ==> Valid(r[i])
  {
    [Random, Slow, Normal, Fast, Bike, PedalBike, FighterJet, Blimp, JetSki, Tank, Sub]
  }

  /** Every car is a category, and the categories are pairwise distinct. */
  lemma CarsAreCategories()
    ensures forall i :: 0 <= i < |Cars()| ==> Cars()[i] in Categories()
    ensures forall i, j :: 0 <= i < j < |Categories()| ==> Categories()[i] != Categories()[j]
  {
  }
}

=== FILE: wrappers.dfy ===
/** Failure-carrying values shared by every module of the model. */
module Wrappers {

  /** An optional value, as Rust's `Option`. */
  datatype Option<+T> = None | Some(value: T) {
    /** The value, or `default` when absent (Rust's `unwrap_or`). */
    function GetOr(default: T): T {
      match this
      case Some(v) => v
      case None => default
    }
  }

  /** A value or an error, as Rust's `Result`. */
  datatype Result<+T, +E> = Ok(value: T) | Err(error: E)

  /** The outcome an abstracted database call reports: a value, or a failure that the
      caller propagates with `?`. */
  datatype Db<+T> = DbOk(value: T) | DbFailed
}
